=== FILE: README.md ===
# 8-puzzle solver, modelled in Dafny

The solver works on a 3x3 board of tiles 1..8 and a blank, written 0. The
goal board is `[[1,2,3],[4,5,6],[7,8,0]]`. A move slides the blank Up, Down,
Left or Right, and the solver always tries the moves in that order. Boards
are compared and stored through their row-major 9-tuple. A parity oracle
rejects boards that can never reach the goal. Two engines search for a move
sequence:

- iterative deepening: a depth-limited DFS whose visited set holds only the
  boards on the current branch, rerun with depth bounds 0, 1, 2, and so on;
- bidirectional breadth-first search: two FIFO frontiers, one from the start
  and one from the goal, that alternate single expansions until they meet.

The modules follow that structure:

- `Board` holds the grid, the key codec, the blank finder and the cell swap.
- `Moves` holds the move datatype, single steps, the neighbour list, paths
  and path inversion.
- `Solvability` holds the inversion-parity oracle and its invariance under
  moves.
- `Walks` holds traces of paths and branch-local freshness. It also proves
  that any solution can be shortened into one that never revisits a board.
- `DepthLimited` holds `dls` and `iterative_deepening`.
- `Bidirectional` holds `bidirectional_search`.

Boards are `seq<seq<int>>` values, so `swap_and_create` leaving its input
untouched holds by construction. Paths are sequences of the `Move` datatype.
`Moves.Name` gives the strings the program prints.

The bounds and errors are modelled as follows.

- `get_blank_pos` returns `None` when the board has no 0.
- `dls` and `get_neighbors` unpack the blank position, so they require a
  board with a blank.
- The program loops forever in `iterative_deepening`, so the model takes a
  `maxDepth` bound.
- The program loops in `bidirectional_search` while both frontiers are
  non-empty, so the model takes a `fuel` bound on rounds.
- A search cut off by `fuel` answers `OutOfFuel`. The answer `None` becomes
  `Exhausted`.

The code's success test is the truthiness test `if res:`, at lines 75 and
87. It reads an empty path as failure, and the model keeps that test. When
the start board is already the goal, `dls` answers `[]` at every depth. So
`iterative_deepening` never returns a path: it keeps searching, and it does
not return a spurious non-empty path. `DepthLimited.IterativeDeepening` states
this: on such a start it answers `None` for every `maxDepth`. The driver
checks for the goal board at line 185 before it calls the engines.

## Model

| member | source | states |
|---|---|---|
| Board.StateToTuple | 8TilePuzzleSol.py:42-43 | the key has nine entries, and entry 3i+j is the tile in row i, column j |
| Board.FromTuple | 8TilePuzzleSol.py:125 | rebuilding a board from a 9-element key gives a 3x3 board whose key is that key again |
| Board.TupleRoundTrip | 8TilePuzzleSol.py:139 | flattening a board and rebuilding it gives the same board back |
| Board.StateToTupleInjective | 8TilePuzzleSol.py:42-43 | two boards have equal keys exactly when they are equal, so sets and maps of keys stand for sets and maps of boards |
| Board.GoalIsValid | 8TilePuzzleSol.py:9-13 | the goal board is a permutation of 0..8 and its key is (1,2,3,4,5,6,7,8,0) |
| Board.GetBlankPos | 8TilePuzzleSol.py:27-32 | a returned position is on the board and holds the blank |
| Board.GetBlankPosFirst | 8TilePuzzleSol.py:27-32 | the returned position is the first 0 in row-major order, and the answer is None exactly when no cell is 0 |
| Board.BlankUnique | 8TilePuzzleSol.py:27-32 | on a permutation of 0..8 the blank is found, and any cell holding 0 is the position returned |
| Board.SwapAndCreate | 8TilePuzzleSol.py:35-39 | the two given cells trade their tiles and every other cell keeps its tile |
| Board.SwapTwice | 8TilePuzzleSol.py:35-39 | exchanging the same two cells again, in either order, restores the board |
| Board.SwapAndCreateKeepsValid | 8TilePuzzleSol.py:35-39 | an exchange keeps a board a permutation of 0..8 |
| Moves.Delta | 8TilePuzzleSol.py:16 | each move shifts the blank by exactly one cell along exactly one axis |
| Moves.DeltaInjective | 8TilePuzzleSol.py:16 | two moves have the same displacement exactly when they are the same move, so the four directions are distinct |
| Moves.Name | 8TilePuzzleSol.py:17 | each move's name is the entry of the name table at the move's position in the move order |
| Moves.MoveTables | 8TilePuzzleSol.py:16-17 | the k-th move of the order has the k-th displacement (-1,0), (1,0), (0,-1), (0,1) and the k-th name Up, Down, Left, Right |
| Moves.NameInjective | 8TilePuzzleSol.py:17 | two moves have the same name exactly when they are the same move, so a printed path determines its moves |
| Moves.Inverse | 8TilePuzzleSol.py:120 | the opposite move has the negated displacement |
| Moves.Step | 8TilePuzzleSol.py:65-70 | a move is legal exactly when the board has a blank and the blank's target cell is on the board |
| Moves.StepInverse | 8TilePuzzleSol.py:96-104 | on a valid board a legal move keeps the board valid, puts the blank at the old position plus the direction, and the opposite move restores the board |
| Moves.GetNeighbors | 8TilePuzzleSol.py:96-104 | every board with a blank has two to four neighbours. Each is the result of its legal move, they come in Up, Down, Left, Right order, and every legal move appears |
| Moves.ApplyPathConcat | 8TilePuzzleSol.py:74 | applying a concatenated path applies the first part and then the second |
| Moves.InvertPath | 8TilePuzzleSol.py:134 | the translated goal-side path has the same length, and its i-th move is the opposite of the original's i-th move from the end |
| Moves.ApplyPathInverse | 8TilePuzzleSol.py:134 | on a valid board, the translated path leads from the end of a path back to its start |
| Solvability.IsSolvable | 8TilePuzzleSol.py:20-24 | a board is solvable exactly when the set of out-of-order index pairs among its non-blank tiles has even size |
| Solvability.InversionsArePairs | 8TilePuzzleSol.py:23 | the recursive inversion count equals the number of index pairs i < j with s[i] > s[j] |
| Solvability.CountInversions | 8TilePuzzleSol.py:23 | the double loop over index pairs counts exactly the pairs i < j with flat[i] > flat[j] |
| Solvability.NonBlankMembers | 8TilePuzzleSol.py:22 | the filtered list holds exactly the non-zero entries, each as often as in the input (its multiset is the input's with every 0 removed), and is never longer than its input |
| Solvability.NonBlankConcat | 8TilePuzzleSol.py:22 | filtering a concatenation gives the filtered parts in the same order, so the filter keeps the row-major order of the tiles |
| Solvability.CheckSolvable | 8TilePuzzleSol.py:20-24 | the answer is the parity test on the inversions of the non-blank tiles, and a valid board it rejects has no solution |
| Solvability.InversionsConcat | 8TilePuzzleSol.py:23 | the inversions of a concatenation are those inside each part plus those across the parts |
| Solvability.StepPreservesSolvability | 8TilePuzzleSol.py:20-24 | every legal move on a valid board keeps the oracle's answer |
| Solvability.PathPreservesSolvability | 8TilePuzzleSol.py:20-24 | every legal path on a valid board keeps the oracle's answer |
| Solvability.GoalIsSolvable | 8TilePuzzleSol.py:9-11 | the goal board passes the oracle |
| Solvability.UnsolvableHasNoSolution | 8TilePuzzleSol.py:20-24 | no path leads from a valid board that fails the oracle to the goal |
| Solvability.TileSwapFlipsSolvability | 8TilePuzzleSol.py:20-24 | exchanging two distinct tiles that sit side by side changes the oracle's answer |
| Solvability.SwappedLastTilesUnsolvable | 8TilePuzzleSol.py:9-11 | the goal board with tiles 7 and 8 exchanged fails the oracle |
| Walks.TracePrefix | 8TilePuzzleSol.py:74 | the i-th board of a path's trace is where the first i moves lead, and the remaining moves lead from it to the path's end |
| Walks.AvoidingIsFresh | 8TilePuzzleSol.py:72-73 | a path that repeats no board and never enters a key of the visited set passes the branch-local visited test at every step |
| Walks.ShortcutToFresh | 8TilePuzzleSol.py:72-77 | every solution has a solution no longer than it that passes the visited test, starting from a visited set holding only the start |
| Walks.NoFreshSolutionMeansNone | 8TilePuzzleSol.py:85-86 | when no path of length at most d passes the visited test, no path of length at most d solves the board |
| Walks.ShortestIsFresh | 8TilePuzzleSol.py:85-86 | a solution with no shorter solution never revisits a board, so it passes the visited test that starts from the start board alone |
| Walks.PrecedesStrictTotal | 8TilePuzzleSol.py:67 | the order in which the depth-first search meets paths is a strict total order: no path comes before itself, and of two distinct paths exactly one comes first |
| DepthLimited.Dls | 8TilePuzzleSol.py:56-78 | the node count grows, and a goal board answers the path so far. A returned path extends the given path by at most depth moves that solve the board, that pass the visited test, and that no other such solution precedes in search order: a proper prefix comes first, then the first differing move decides, Up before Down before Left before Right. A None answer leaves the visited set as it was and means no path of at most depth moves that passes the visited test solves the board |
| DepthLimited.TryMove | 8TilePuzzleSol.py:67-77 | a returned path extends the given path by the move m and then further moves, and the part after the given path solves the board, passes the visited test and comes before every other such solution that starts with m. A None answer restores the visited set and rules out every such path starting with m |
| DepthLimited.Descend | 8TilePuzzleSol.py:72-77 | for a legal move onto a board off the branch, the same promises as for one pass of the move loop, with at least one more node counted |
| DepthLimited.EarliestThroughMove | 8TilePuzzleSol.py:67-76 | when every move before the k-th in Up, Down, Left, Right order is ruled out, the first solution found through the k-th move precedes every other fresh solution of at most depth moves |
| DepthLimited.IterativeDeepening | 8TilePuzzleSol.py:81-89 | a returned path solves the start within maxDepth moves. No shorter path does, and no path of the same length that solves the start comes before it in search order, so it is the first shortest solution in Up, Down, Left, Right order. None on a non-goal start means no solution of at most maxDepth moves. A goal start never yields a path, and the shared node counter is at least one per round |
| Bidirectional.FrontierKeysPush | 8TilePuzzleSol.py:132 | appending an entry to a frontier adds exactly its key to the frontier's keys |
| Bidirectional.NewEntries | 8TilePuzzleSol.py:128-132 | the entries one expansion queues: at most one per neighbour, none for a key the side had already seen |
| Bidirectional.NewEntriesOrigin | 8TilePuzzleSol.py:128-132 | each queued entry is some neighbour's key paired with the popped path plus that neighbour's move, the entries come in the neighbours' Up, Down, Left, Right order, and every neighbour whose key the side had not seen is queued |
| Bidirectional.FirstKnown | 8TilePuzzleSol.py:128-135 | the scan stops at a neighbour whose key the other side knows and with no such neighbour before it, and runs to the end exactly when no neighbour's key is known |
| Bidirectional.VisitNeighbor | 8TilePuzzleSol.py:129-135 | an unseen neighbour is recorded with the current path plus the move and appended to the back of the queue; a seen neighbour changes nothing. The side's records stay truthful, and the search meets exactly when the other side already knows the neighbour |
| Bidirectional.ExpandSide | 8TilePuzzleSol.py:124-135 | expanding pops the head of the queue and keeps every entry truthful. The sides meet exactly when some neighbour of the popped board is known to the other side, and then at the first such neighbour in move order, recorded with the popped path plus its move. Otherwise the new queue is the old tail followed by the new entries of the popped board's neighbours in move order. The popped key, which had not been expanded before, joins the expanded set with all its neighbours visited, queued keys stay distinct and unexpanded, and the two sides stay disjoint |
| Bidirectional.MeetSolves | 8TilePuzzleSol.py:133-135 | joining a start-side path and the translated goal-side path to the same key gives a path from the start to the goal |
| Bidirectional.ClosedContainsReachable | 8TilePuzzleSol.py:122 | when every visited board has all its neighbours visited, every board reachable from a visited board is visited |
| Bidirectional.Round | 8TilePuzzleSol.py:122-149 | the start side's head is expanded first, and the round stops after that one expansion exactly when a neighbour of it is known to the goal side; otherwise the goal side's head is expanded, and the round meets exactly when a neighbour of it is known to the start side. A meeting yields a path that solves the start and is the start side's path to a key known to both sides followed by the goal side's translated path to that key. Otherwise each queue becomes its tail followed by the new entries of its popped board's neighbours, both sides expanded one new board each, two expansions were counted, and the invariants of both sides hold again |
| Bidirectional.BidirectionalSearch | 8TilePuzzleSol.py:107-151 | a found path solves the start. The answer is the empty path with zero expansions exactly when the start is the goal. Running out of frontier means no solution exists. Running out of fuel means each side expanded `fuel` distinct boards, each reachable from its root, and 2·fuel expansions were counted; the counter never exceeds two per round |

## Left out

- The interactive driver at lines 158-199 is left out. It covers input parsing, `exit` and the random generation of a solvable start board, which are I/O and randomness.
- `print_state` at lines 46-49 is left out, because it is console output only.
- `deque` and hashing performance are left out. Frontiers are sequences used as queues, and the visited sets and maps are Dafny sets and maps.
- `nodes_expanded` is a one-element list shared by reference in the program. Here it is a counter passed in and handed back.
- The `visited` set of `dls` is mutated in place by the program. Here it is passed in and handed back.
- Solvability.CheckSolvable: only one direction of the oracle's meaning is proved, that a rejected valid board has no solution. The converse, that every accepted valid board reaches the goal, needs a constructive solving argument and is left out.
- DepthLimited.IterativeDeepening: the program's `while True` is cut at `maxDepth`. On an unsolvable board the program does not terminate, and the model answers None once the bound is passed.
- DepthLimited.IterativeDeepening: the exact node count of a concrete run, such as 5 for `[[1,2,3],[4,5,6],[7,0,8]]`, is not stated. Only lower bounds are, at least one node per round and at least one more than the path length.
- Bidirectional.BidirectionalSearch: the frontier loop is cut after `fuel` rounds and then answers `OutOfFuel`. The program has no such case.
- Bidirectional.BidirectionalSearch: the exact node count of a concrete run, such as 1 for `[[1,2,3],[4,5,6],[7,0,8]]`, is not stated. Only the bound of two expansions per round is.
- Bidirectional.BidirectionalSearch: the found path is not claimed to be shortest. Single-node alternation does not promise that, and the program does not claim it either.
- Paths are sequences of `Move` values, not of the strings `"Up"`, `"Down"`, `"Left"`, `"Right"`. `Moves.Name` maps each move to its string, and `Moves.NameInjective` proves the mapping one-to-one.
- DepthLimited.Dls, DepthLimited.IterativeDeepening, Moves.GetNeighbors and Bidirectional.BidirectionalSearch: these require a board with a blank. On a board without a 0 the program raises a TypeError when it unpacks the `None` from `get_blank_pos` at lines 65 and 98; that error path is not modelled.
- Bidirectional.BidirectionalSearch: which solution comes back, for example `[Right]` for `[[1,2,3],[4,5,6],[7,0,8]]`, is not stated for the search as a whole. It is fixed step by step: `Bidirectional.ExpandSide` pins the queue order and the first meeting neighbour, and `Bidirectional.Round` pins which side expands first, which queues result, and that the answer joins both sides' paths at a key both know.

=== FILE: bidirectional.dfy ===
/**
  Bidirectional breadth-first search: one frontier grows from the start
  board and one from the goal board, one expansion each per round, until a
  newly discovered board is already known to the other side.
 */
module Bidirectional {
  import opened Options
  import opened Board
  import opened Moves

  /** A frontier entry: a board's key and the path that first reached it. */
  type Entry = (Key, seq<Move>)

  /**
    How the search ended. `Exhausted` is the solver's `None` answer (a
    frontier ran dry); `OutOfFuel` means the round budget ran out first.
   */
  datatype Outcome = Found(path: seq<Move>) | Exhausted | OutOfFuel

  /** The keys waiting in a frontier queue. */
  function FrontierKeys(fs: seq<Entry>): (ks: set<Key>)
    ensures forall i | 0 <= i < |fs| :: fs[i].0 in ks
    ensures forall k | k in ks :: exists i | 0 <= i < |fs| :: fs[i].0 == k
  {
    set i | 0 <= i < |fs| :: fs[i].0
  }

  lemma FrontierKeysPop(fs: seq<Entry>)
    requires fs != []
    ensures FrontierKeys(fs) == {fs[0].0} + FrontierKeys(fs[1..])
  {
    forall k | k in FrontierKeys(fs)
      ensures k in {fs[0].0} + FrontierKeys(fs[1..])
    {
      var i :| 0 <= i < |fs| && fs[i].0 == k;
      if i > 0 {
        assert fs[1..][i - 1] == fs[i];
      }
    }
    forall k | k in FrontierKeys(fs[1..])
      ensures k in FrontierKeys(fs)
    {
      var i :| 0 <= i < |fs[1..]| && fs[1..][i].0 == k;
      assert fs[i + 1] == fs[1..][i];
    }
  }

  lemma FrontierKeysPush(fs: seq<Entry>, e: Entry)
    ensures FrontierKeys(fs + [e]) == FrontierKeys(fs) + {e.0}
  {
    var fs' := fs + [e];
    assert fs'[|fs|] == e;
    forall k | k in FrontierKeys(fs')
      ensures k in FrontierKeys(fs) + {e.0}
    {
      var i :| 0 <= i < |fs'| && fs'[i].0 == k;
      if i < |fs| {
        assert fs'[i] == fs[i];
      }
    }
    forall i | 0 <= i < |fs|
      ensures fs[i].0 in FrontierKeys(fs')
    {
      assert fs'[i] == fs[i];
    }
  }

  /** Every board one move away from the board with key `k` has its key in `seen`. */
  ghost predicate NeighborsSeen(k: Key, seen: set<Key>) {
    |k| == 9 &&
    forall m :: Step(FromTuple(k), m).Some? ==> StateToTuple(Step(FromTuple(k), m).value) in seen
  }

  /** Every visited key is reached from `root` by its recorded path. */
  ghost predicate Reached(root: Grid, vs: map<Key, seq<Move>>)
    requires IsGrid(root)
  {
    forall k | k in vs :: Reaches(root, vs[k], k)
  }

  /** Every queued entry is visited, with the path the visited map records for it. */
  predicate QueueAgrees(fs: seq<Entry>, vs: map<Key, seq<Move>>) {
    forall i | 0 <= i < |fs| :: fs[i].0 in vs && vs[fs[i].0] == fs[i].1
  }

  lemma ReachedAdd(root: Grid, vs: map<Key, seq<Move>>, t: Key, p: seq<Move>)
    requires IsGrid(root) && Reached(root, vs) && Reaches(root, p, t)
    ensures Reached(root, vs[t := p])
  {
  }

  lemma QueueAdd(fs: seq<Entry>, vs: map<Key, seq<Move>>, t: Key, p: seq<Move>)
    requires QueueAgrees(fs, vs) && t !in vs
    ensures QueueAgrees(fs + [(t, p)], vs[t := p])
  {
    var fs' := fs + [(t, p)];
    forall i | 0 <= i < |fs'|
      ensures fs'[i].0 in vs[t := p] && vs[t := p][fs'[i].0] == fs'[i].1
    {
      if i < |fs| {
        assert fs'[i] == fs[i];
      }
    }
  }

  lemma QueuePop(fs: seq<Entry>, vs: map<Key, seq<Move>>)
    requires QueueAgrees(fs, vs) && fs != []
    ensures QueueAgrees(fs[1..], vs)
  {
    forall i | 0 <= i < |fs| - 1
      ensures fs[1..][i].0 in vs && vs[fs[1..][i].0] == fs[1..][i].1
    {
      assert fs[1..][i] == fs[i + 1];
    }
  }

  /** Every expanded key has all its neighbours in `seen`. */
  ghost predicate Closed(exp: set<Key>, seen: set<Key>) {
    forall k | k in exp :: NeighborsSeen(k, seen)
  }

  /**
    No key is queued twice, and no queued key is in `done` (the boards
    already expanded, or being expanded).
   */
  ghost predicate Unique(fs: seq<Entry>, done: set<Key>) {
    && (forall i, j | 0 <= i < j < |fs| :: fs[i].0 != fs[j].0)
    && done !! FrontierKeys(fs)
  }

  /** Popping the head of a duplicate-free queue: the head was not done, and is not queued again. */
  lemma UniquePop(fs: seq<Entry>, done: set<Key>)
    requires Unique(fs, done) && fs != []
    ensures fs[0].0 !in done
    ensures Unique(fs[1..], done + {fs[0].0})
  {
    FrontierKeysPop(fs);
    forall i, j | 0 <= i < j < |fs[1..]|
      ensures fs[1..][i].0 != fs[1..][j].0
    {
      assert fs[1..][i] == fs[i + 1] && fs[1..][j] == fs[j + 1];
    }
    forall k | k in FrontierKeys(fs[1..])
      ensures k != fs[0].0
    {
      var i :| 0 <= i < |fs[1..]| && fs[1..][i].0 == k;
      assert fs[1..][i] == fs[i + 1];
    }
  }

  /** Appending a key that is neither queued nor done keeps the queue duplicate-free. */
  lemma UniquePush(fs: seq<Entry>, done: set<Key>, e: Entry)
    requires Unique(fs, done) && e.0 !in done && e.0 !in FrontierKeys(fs)
    ensures Unique(fs + [e], done)
  {
    FrontierKeysPush(fs, e);
    var fs' := fs + [e];
    forall i, j | 0 <= i < j < |fs'|
      ensures fs'[i].0 != fs'[j].0
    {
      assert fs'[i] == fs[i];
      if j < |fs| {
        assert fs'[j] == fs[j];
      }
    }
  }

  /**
    What one side of the search maintains: the visited map and queue are
    recorded truthfully, the visited keys are the expanded keys plus the
    queued ones, every expanded key has all its neighbours visited, and no
    key is queued twice or queued after its expansion.
   */
  ghost predicate SideInv(root: Grid, fs: seq<Entry>, vs: map<Key, seq<Move>>, exp: set<Key>)
    requires IsGrid(root)
  {
    Reached(root, vs) && QueueAgrees(fs, vs) && vs.Keys == exp + FrontierKeys(fs) && Closed(exp, vs.Keys)
      && Unique(fs, exp)
  }

  /** The state of one side before its first expansion. */
  lemma InitialSide(root: Grid)
    requires IsGrid(root)
    ensures SideInv(root, [(StateToTuple(root), [])], map[StateToTuple(root) := []], {})
  {
    var e: Entry := (StateToTuple(root), []);
    FrontierKeysPush([], e);
    assert [] + [e] == [e];
  }

  lemma ClosedAdd(exp: set<Key>, k: Key, seen: set<Key>)
    requires Closed(exp, seen) && NeighborsSeen(k, seen)
    ensures Closed(exp + {k}, seen)
  {
  }

  lemma ClosedGrow(exp: set<Key>, a: set<Key>, b: set<Key>)
    requires a <= b && Closed(exp, a)
    ensures Closed(exp, b)
  {
  }

  /** The board behind a visited key is the board its path reaches, so it has a blank. */
  lemma VisitedBoard(root: Grid, p: seq<Move>, k: Key)
    requires IsGrid(root) && GetBlankPos(root).Some? && Reaches(root, p, k)
    ensures |k| == 9 && FromTuple(k) == ApplyPath(root, p).value
    ensures GetBlankPos(FromTuple(k)).Some?
  {
    TupleRoundTrip(ApplyPath(root, p).value);
    ApplyPathKeepsBlank(root, p);
  }

  /** Extending a path to a board by one legal move reaches that move's result. */
  lemma ReachesStep(root: Grid, p: seq<Move>, h: Grid, m: Move)
    requires IsGrid(root) && ApplyPath(root, p) == Some(h) && Step(h, m).Some?
    ensures Reaches(root, p + [m], StateToTuple(Step(h, m).value))
  {
    ApplyPathConcat(root, p, [m]);
    assert ApplyPath(h, [m]) == ApplyPath(Step(h, m).value, []);
  }

  /** The neighbours, in move order, of the board with key `k`; none when `k` is not a board with a blank. */
  function KeyNeighbors(k: Key): (ns: seq<(Grid, Move)>)
    ensures forall j | 0 <= j < |ns| :: IsGrid(ns[j].0)
  {
    if |k| == 9 && GetBlankPos(FromTuple(k)).Some? then
      NeighborsAreGrids(FromTuple(k), GetNeighbors(FromTuple(k)));
      GetNeighbors(FromTuple(k))
    else []
  }

  /**
    The entries one expansion queues, in order: each neighbour whose key is
    neither in `seen` nor queued by an earlier neighbour, with `path`
    extended by the neighbour's move.
   */
  function NewEntries(ns: seq<(Grid, Move)>, path: seq<Move>, seen: set<Key>): (es: seq<Entry>)
    requires forall j | 0 <= j < |ns| :: IsGrid(ns[j].0)
    ensures |es| <= |ns|
    ensures forall i | 0 <= i < |es| :: es[i].0 !in seen
    decreases |ns|
  {
    if ns == [] then []
    else
      var init := NewEntries(ns[..|ns| - 1], path, seen);
      var t := StateToTuple(ns[|ns| - 1].0);
      if t in seen || t in FrontierKeys(init) then init else init + [(t, path + [ns[|ns| - 1].1])]
  }

  /** Entry `i` of `es` is neighbour `idx[i]` of `ns` with `path` plus its
      move, and the neighbour indices strictly increase. */
  ghost predicate Origin(ns: seq<(Grid, Move)>, path: seq<Move>, es: seq<Entry>, idx: seq<nat>)
    requires forall j | 0 <= j < |ns| :: IsGrid(ns[j].0)
  {
    && |idx| == |es|
    && (forall i | 0 <= i < |idx| :: idx[i] < |ns| &&
          es[i] == (StateToTuple(ns[idx[i]].0), path + [ns[idx[i]].1]))
    && (forall i, i' | 0 <= i < i' < |idx| :: idx[i] < idx[i'])
  }

  /** Every neighbour whose key is not in `seen` has its key queued in `es`. */
  ghost predicate Covers(ns: seq<(Grid, Move)>, seen: set<Key>, es: seq<Entry>)
    requires forall j | 0 <= j < |ns| :: IsGrid(ns[j].0)
  {
    forall j | 0 <= j < |ns| && StateToTuple(ns[j].0) !in seen ::
      StateToTuple(ns[j].0) in FrontierKeys(es)
  }

  /** Extending the scanned neighbours by one, with or without a new entry. */
  lemma OriginStep(ns: seq<(Grid, Move)>, path: seq<Move>, seen: set<Key>, es: seq<Entry>, idx: seq<nat>)
    requires forall j | 0 <= j < |ns| :: IsGrid(ns[j].0)
    requires ns != []
    requires Origin(ns[..|ns| - 1], path, es, idx) && Covers(ns[..|ns| - 1], seen, es)
    ensures Origin(ns, path, es, idx)
    ensures var t := StateToTuple(ns[|ns| - 1].0);
      (t in seen || t in FrontierKeys(es)) ==> Covers(ns, seen, es)
    ensures var e := (StateToTuple(ns[|ns| - 1].0), path + [ns[|ns| - 1].1]);
      Origin(ns, path, es + [e], idx + [|ns| - 1]) && Covers(ns, seen, es + [e])
  {
    var n := |ns| - 1;
    var init := ns[..n];
    assert forall j | 0 <= j < n :: init[j] == ns[j];
    var e := (StateToTuple(ns[n].0), path + [ns[n].1]);
    FrontierKeysPush(es, e);
    var es', idx' := es + [e], idx + [n];
    assert forall i | 0 <= i < |es| :: es'[i] == es[i] && idx'[i] == idx[i];
  }

  /** One more neighbour scanned by `NewEntries`. */
  lemma NewEntriesStep(ns: seq<(Grid, Move)>, path: seq<Move>, seen: set<Key>, idx0: seq<nat>) returns (idx: seq<nat>)
    requires forall j | 0 <= j < |ns| :: IsGrid(ns[j].0)
    requires ns != []
    requires Origin(ns[..|ns| - 1], path, NewEntries(ns[..|ns| - 1], path, seen), idx0)
    requires Covers(ns[..|ns| - 1], seen, NewEntries(ns[..|ns| - 1], path, seen))
    ensures Origin(ns, path, NewEntries(ns, path, seen), idx)
    ensures Covers(ns, seen, NewEntries(ns, path, seen))
  {
    var n := |ns| - 1;
    var es0 := NewEntries(ns[..n], path, seen);
    OriginStep(ns, path, seen, es0, idx0);
    var t := StateToTuple(ns[n].0);
    if t in seen || t in FrontierKeys(es0) {
      idx := idx0;
    } else {
      idx := idx0 + [n];
    }
  }

  /**
    What `NewEntries` queues: each entry is some neighbour's key paired with
    `path` plus that neighbour's move, the entries follow the neighbours'
    order (`idx` gives each entry's neighbour, strictly increasing), and
    every neighbour whose key was not in `seen` is queued.
   */
  lemma {:induction false} NewEntriesOrigin(ns: seq<(Grid, Move)>, path: seq<Move>, seen: set<Key>) returns (idx: seq<nat>)
    requires forall j | 0 <= j < |ns| :: IsGrid(ns[j].0)
    ensures Origin(ns, path, NewEntries(ns, path, seen), idx)
    ensures Covers(ns, seen, NewEntries(ns, path, seen))
    decreases |ns|
  {
    if ns == [] {
      idx := [];
    } else {
      var idx0 := NewEntriesOrigin(ns[..|ns| - 1], path, seen);
      idx := NewEntriesStep(ns, path, seen, idx0);
    }
  }

  /** Where the scan of `ns` stops: the position of the first neighbour whose key is in `known`. */
  function FirstKnown(ns: seq<(Grid, Move)>, known: set<Key>): (r: Option<nat>)
    requires forall j | 0 <= j < |ns| :: IsGrid(ns[j].0)
    ensures r.Some? ==> r.value < |ns| && StateToTuple(ns[r.value].0) in known
    ensures r.Some? ==> forall j | 0 <= j < r.value :: StateToTuple(ns[j].0) !in known
    ensures r.None? ==> forall j | 0 <= j < |ns| :: StateToTuple(ns[j].0) !in known
    decreases |ns|
  {
    if ns == [] then None
    else
      var init := FirstKnown(ns[..|ns| - 1], known);
      if init.Some? then init
      else if StateToTuple(ns[|ns| - 1].0) in known then Some(|ns| - 1)
      else None
  }

  /** A known neighbour with no known neighbour before it is where the scan stops. */
  lemma FirstKnownAt(ns: seq<(Grid, Move)>, known: set<Key>, i: nat)
    requires forall j | 0 <= j < |ns| :: IsGrid(ns[j].0)
    requires i < |ns| && StateToTuple(ns[i].0) in known
    requires forall j | 0 <= j < i :: StateToTuple(ns[j].0) !in known
    ensures FirstKnown(ns, known) == Some(i)
  {
  }

  /** When no neighbour is known, the scan runs to the end. */
  lemma FirstKnownNone(ns: seq<(Grid, Move)>, known: set<Key>)
    requires forall j | 0 <= j < |ns| :: IsGrid(ns[j].0)
    requires forall j | 0 <= j < |ns| :: StateToTuple(ns[j].0) !in known
    ensures FirstKnown(ns, known).None?
  {
  }

  /**
    One expansion, the same for either side: pops the first frontier entry
    and visits its neighbours in move order. A neighbour not yet visited by
    this side is recorded and queued; if the other side already knows it,
    the search has met there and stops at once.
   */
  method ExpandSide(root: Grid, fs: seq<Entry>, vs: map<Key, seq<Move>>, other: map<Key, seq<Move>>, ghost exp: set<Key>)
    returns (meet: Option<Key>, fs': seq<Entry>, vs': map<Key, seq<Move>>, ghost exp': set<Key>)
    requires IsGrid(root) && GetBlankPos(root).Some?
    requires SideInv(root, fs, vs, exp) && fs != []
    requires vs.Keys !! other.Keys
    ensures Reached(root, vs')
    ensures Extends(fs[1..], vs, fs', vs')
    ensures meet.Some? ==> meet.value in vs' && meet.value in other
    ensures meet.None? <==> FirstKnown(KeyNeighbors(fs[0].0), other.Keys).None?
    ensures meet.Some? ==>
      var ns := KeyNeighbors(fs[0].0); var i := FirstKnown(ns, other.Keys).value;
      meet.value == StateToTuple(ns[i].0) && vs'[meet.value] == fs[0].1 + [ns[i].1]
    ensures meet.None? ==> fs' == fs[1..] + NewEntries(KeyNeighbors(fs[0].0), fs[0].1, vs.Keys)
    ensures meet.None? ==> fs[0].0 !in exp && exp' == exp + {fs[0].0}
    ensures meet.None? ==> SideInv(root, fs', vs', exp') && vs'.Keys !! other.Keys
  {
    var curr := fs[0].0;
    var path := fs[0].1;
    PopEntry(root, fs, vs, exp);
    var currState := FromTuple(curr);
    var ns := GetNeighbors(currState);
    NeighborsAreGrids(currState, ns);
    assert ns == KeyNeighbors(curr);
    meet, fs', vs' := VisitAll(root, path, currState, ns, fs[1..], vs, other, exp, curr);
    if meet.Some? {
      return meet, fs', vs', exp;
    }
    exp' := exp + {curr};
    FinishExpansion(root, fs', vs', exp, currState, ns);
  }

  /** Popping the head of a frontier leaves its board pending, and that board has a blank. */
  lemma PopEntry(root: Grid, fs: seq<Entry>, vs: map<Key, seq<Move>>, exp: set<Key>)
    requires IsGrid(root) && GetBlankPos(root).Some?
    requires SideInv(root, fs, vs, exp) && fs != []
    ensures Pending(root, fs[1..], vs, exp, fs[0].0)
    ensures |fs[0].0| == 9 && FromTuple(fs[0].0) == ApplyPath(root, fs[0].1).value
    ensures GetBlankPos(FromTuple(fs[0].0)).Some?
  {
    FrontierKeysPop(fs);
    QueuePop(fs, vs);
    UniquePop(fs, exp);
    VisitedBoard(root, fs[0].1, fs[0].0);
  }

  /** Once every neighbour of the pending board is visited, it joins the expanded set. */
  lemma FinishExpansion(root: Grid, fs: seq<Entry>, vs: map<Key, seq<Move>>, exp: set<Key>, g: Grid, ns: seq<(Grid, Move)>)
    requires IsGrid(root) && IsGrid(g) && GetBlankPos(g).Some? && ns == GetNeighbors(g)
    requires Pending(root, fs, vs, exp, StateToTuple(g))
    requires forall j | 0 <= j < |ns| :: StateToTuple(ns[j].0) in vs
    ensures SideInv(root, fs, vs, exp + {StateToTuple(g)})
  {
    AllNeighborsSeen(g, ns, vs.Keys);
    ClosedAdd(exp, StateToTuple(g), vs.Keys);
  }

  /** The loop over the neighbours of the expanded board, stopping at the first meeting point. */
  method VisitAll(root: Grid, path: seq<Move>, currState: Grid, ns: seq<(Grid, Move)>,
                  fs: seq<Entry>, vs: map<Key, seq<Move>>, other: map<Key, seq<Move>>,
                  ghost exp: set<Key>, ghost curr: Key)
    returns (meet: Option<Key>, fs': seq<Entry>, vs': map<Key, seq<Move>>)
    requires IsGrid(root) && ApplyPath(root, path) == Some(currState)
    requires forall j | 0 <= j < |ns| :: IsGrid(ns[j].0) && Step(currState, ns[j].1) == Some(ns[j].0)
    requires Pending(root, fs, vs, exp, curr) && vs.Keys !! other.Keys
    ensures Pending(root, fs', vs', exp, curr)
    ensures Extends(fs, vs, fs', vs')
    ensures meet.Some? ==> meet.value in vs' && meet.value in other
    ensures ScanOutcome(ns, path, vs.Keys, other.Keys, fs, meet, fs', vs')
    ensures meet.None? ==> vs'.Keys !! other.Keys && forall j | 0 <= j < |ns| :: StateToTuple(ns[j].0) in vs'
  {
    fs' := fs;
    vs' := vs;
    assert ns[..0] == [];
    var i := 0;
    while i < |ns|
      invariant 0 <= i <= |ns|
      invariant SweepInv(root, path, ns, i, fs, vs, other, exp, curr, fs', vs')
    {
      var met;
      met, fs', vs' := VisitStep(root, path, currState, ns, i, fs, vs, other, exp, curr, fs', vs');
      if met {
        return Some(StateToTuple(ns[i].0)), fs', vs';
      }
      i := i + 1;
    }
    SweepDone(root, path, ns, fs, vs, other, exp, curr, fs', vs');
    return None, fs', vs';
  }

  /** A sweep over all the neighbours without a meeting ends with every neighbour visited. */
  lemma SweepDone(root: Grid, path: seq<Move>, ns: seq<(Grid, Move)>,
                  fs: seq<Entry>, vs: map<Key, seq<Move>>, other: map<Key, seq<Move>>,
                  exp: set<Key>, curr: Key, fs': seq<Entry>, vs': map<Key, seq<Move>>)
    requires IsGrid(root) && forall j | 0 <= j < |ns| :: IsGrid(ns[j].0)
    requires SweepInv(root, path, ns, |ns|, fs, vs, other, exp, curr, fs', vs')
    ensures Pending(root, fs', vs', exp, curr) && Extends(fs, vs, fs', vs')
    ensures ScanOutcome(ns, path, vs.Keys, other.Keys, fs, None, fs', vs')
    ensures vs'.Keys !! other.Keys && forall j | 0 <= j < |ns| :: StateToTuple(ns[j].0) in vs'
  {
    assert ns[..|ns|] == ns;
    FirstKnownNone(ns, other.Keys);
  }

  /**
    What the scan over `ns` produced: it met exactly when some neighbour is
    known to the other side, at the first such neighbour, recorded with
    `path` plus its move; otherwise the queue grew by exactly the new entries.
   */
  ghost predicate ScanOutcome(ns: seq<(Grid, Move)>, path: seq<Move>, seen: set<Key>, known: set<Key>,
                              fs: seq<Entry>, meet: Option<Key>, fs': seq<Entry>, vs': map<Key, seq<Move>>)
    requires forall j | 0 <= j < |ns| :: IsGrid(ns[j].0)
  {
    && (meet.None? <==> FirstKnown(ns, known).None?)
    && (meet.Some? ==> var i := FirstKnown(ns, known).value;
         meet.value == StateToTuple(ns[i].0) && meet.value in vs' && vs'[meet.value] == path + [ns[i].1])
    && (meet.None? ==> fs' == fs + NewEntries(ns, path, seen))
  }

  /**
    The loop state of `VisitAll` after the first `i` neighbours: the side
    invariant holds, the queue and map only grew, by exactly the new
    entries of those neighbours, all of which are visited, and no visited
    key is known to the other side.
   */
  ghost predicate SweepInv(root: Grid, path: seq<Move>, ns: seq<(Grid, Move)>, i: nat,
                           fs: seq<Entry>, vs: map<Key, seq<Move>>, other: map<Key, seq<Move>>,
                           exp: set<Key>, curr: Key, fs': seq<Entry>, vs': map<Key, seq<Move>>)
    requires IsGrid(root) && forall j | 0 <= j < |ns| :: IsGrid(ns[j].0)
  {
    && i <= |ns|
    && Extends(fs, vs, fs', vs')
    && Pending(root, fs', vs', exp, curr)
    && (forall j | 0 <= j < i :: StateToTuple(ns[j].0) in vs')
    && vs'.Keys !! other.Keys
    && Swept(ns, i, path, vs.Keys, fs, fs', vs'.Keys)
  }

  /** Visits neighbour `i`: either the sides meet there, first among the neighbours, or the loop state advances. */
  method VisitStep(root: Grid, path: seq<Move>, currState: Grid, ns: seq<(Grid, Move)>, i: nat,
                   fs: seq<Entry>, vs: map<Key, seq<Move>>, other: map<Key, seq<Move>>,
                   ghost exp: set<Key>, ghost curr: Key, fs1: seq<Entry>, vs1: map<Key, seq<Move>>)
    returns (met: bool, fs2: seq<Entry>, vs2: map<Key, seq<Move>>)
    requires IsGrid(root) && ApplyPath(root, path) == Some(currState)
    requires forall j | 0 <= j < |ns| :: IsGrid(ns[j].0) && Step(currState, ns[j].1) == Some(ns[j].0)
    requires i < |ns| && SweepInv(root, path, ns, i, fs, vs, other, exp, curr, fs1, vs1)
    ensures Pending(root, fs2, vs2, exp, curr) && Extends(fs, vs, fs2, vs2)
    ensures met ==> StateToTuple(ns[i].0) in vs2 && StateToTuple(ns[i].0) in other
    ensures met ==> ScanOutcome(ns, path, vs.Keys, other.Keys, fs, Some(StateToTuple(ns[i].0)), fs2, vs2)
    ensures !met ==> SweepInv(root, path, ns, i + 1, fs, vs, other, exp, curr, fs2, vs2)
  {
    met, fs2, vs2 := VisitNeighbor(root, path, currState, ns[i].0, ns[i].1, fs1, vs1, other, exp, curr);
    ExtendsTrans(fs, vs, fs1, vs1, fs2, vs2);
    SweepStep(ns, i, path, vs.Keys, fs, fs1, vs1, fs2, vs2);
    if met {
      FirstKnownAt(ns, other.Keys, i);
    } else {
      SeenPrefixGrow(ns, i, vs1.Keys, vs2.Keys);
    }
  }

  /** After the first `i` neighbours, the queue and the visited keys grew by exactly their new entries. */
  ghost predicate Swept(ns: seq<(Grid, Move)>, i: nat, path: seq<Move>, seen: set<Key>,
                        fs: seq<Entry>, fs': seq<Entry>, seen': set<Key>)
    requires forall j | 0 <= j < |ns| :: IsGrid(ns[j].0)
    requires i <= |ns|
  {
    fs' == fs + NewEntries(ns[..i], path, seen) && seen' == seen + FrontierKeys(NewEntries(ns[..i], path, seen))
  }

  /** Visiting neighbour `i` extends the swept prefix by one. */
  lemma SweepStep(ns: seq<(Grid, Move)>, i: nat, path: seq<Move>, seen: set<Key>, fs: seq<Entry>,
                  fs1: seq<Entry>, vs1: map<Key, seq<Move>>, fs2: seq<Entry>, vs2: map<Key, seq<Move>>)
    requires forall j | 0 <= j < |ns| :: IsGrid(ns[j].0)
    requires i < |ns| && Swept(ns, i, path, seen, fs, fs1, vs1.Keys)
    requires var t := StateToTuple(ns[i].0);
      && (t !in vs1 ==> vs2 == vs1[t := path + [ns[i].1]] && fs2 == fs1 + [(t, path + [ns[i].1])])
      && (t in vs1 ==> vs2 == vs1 && fs2 == fs1)
    ensures Swept(ns, i + 1, path, seen, fs, fs2, vs2.Keys)
  {
    var init := NewEntries(ns[..i], path, seen);
    assert ns[..i + 1][..i] == ns[..i];
    var t := StateToTuple(ns[i].0);
    if t !in vs1 {
      FrontierKeysPush(init, (t, path + [ns[i].1]));
    }
  }

  /**
    The queue only grew at the back and the visited map only gained keys:
    every earlier entry and every recorded path is still there.
   */
  predicate Extends(fs: seq<Entry>, vs: map<Key, seq<Move>>, fs': seq<Entry>, vs': map<Key, seq<Move>>) {
    && |fs| <= |fs'| && fs'[..|fs|] == fs
    && forall k | k in vs :: k in vs' && vs'[k] == vs[k]
  }

  lemma ExtendsTrans(fs: seq<Entry>, vs: map<Key, seq<Move>>, a: seq<Entry>, va: map<Key, seq<Move>>,
                     b: seq<Entry>, vb: map<Key, seq<Move>>)
    requires Extends(fs, vs, a, va) && Extends(a, va, b, vb)
    ensures Extends(fs, vs, b, vb)
  {
    assert b[..|fs|] == b[..|a|][..|fs|];
  }

  /** The side invariant while the board `curr` is being expanded: it is neither queued nor closed. */
  ghost predicate Pending(root: Grid, fs: seq<Entry>, vs: map<Key, seq<Move>>, exp: set<Key>, curr: Key)
    requires IsGrid(root)
  {
    Reached(root, vs) && QueueAgrees(fs, vs) && vs.Keys == exp + {curr} + FrontierKeys(fs) && Closed(exp, vs.Keys)
      && curr !in exp && Unique(fs, exp + {curr})
  }

  lemma SeenPrefixGrow(ns: seq<(Grid, Move)>, i: nat, a: set<Key>, b: set<Key>)
    requires forall j | 0 <= j < |ns| :: IsGrid(ns[j].0)
    requires i < |ns| && a <= b && StateToTuple(ns[i].0) in b
    requires forall j | 0 <= j < i :: StateToTuple(ns[j].0) in a
    ensures forall j | 0 <= j < i + 1 :: StateToTuple(ns[j].0) in b
  {
  }

  /**
    One neighbour of the expanded board: if this side has not visited it,
    it is recorded with its path and queued, and the search has met when
    the other side knows it too.
   */
  method VisitNeighbor(root: Grid, path: seq<Move>, currState: Grid, neighbor: Grid, m: Move,
                       fs: seq<Entry>, vs: map<Key, seq<Move>>, other: map<Key, seq<Move>>,
                       ghost exp: set<Key>, ghost curr: Key)
    returns (met: bool, fs': seq<Entry>, vs': map<Key, seq<Move>>)
    requires IsGrid(root) && ApplyPath(root, path) == Some(currState) && Step(currState, m) == Some(neighbor)
    requires Pending(root, fs, vs, exp, curr) && vs.Keys !! other.Keys
    ensures Pending(root, fs', vs', exp, curr)
    ensures StateToTuple(neighbor) !in vs ==>
      vs' == vs[StateToTuple(neighbor) := path + [m]] && fs' == fs + [(StateToTuple(neighbor), path + [m])]
    ensures StateToTuple(neighbor) in vs ==> vs' == vs && fs' == fs
    ensures Extends(fs, vs, fs', vs')
    ensures met <==> StateToTuple(neighbor) in other
    ensures !met ==> vs'.Keys !! other.Keys
  {
    var t := StateToTuple(neighbor);
    if t in vs {
      return false, fs, vs;
    }
    ReachesStep(root, path, currState, m);
    PendingAdd(root, fs, vs, exp, curr, t, path + [m]);
    vs' := vs[t := path + [m]];
    fs' := fs + [(t, path + [m])];
    assert fs'[..|fs|] == fs;
    met := t in other;
  }

  lemma PendingAdd(root: Grid, fs: seq<Entry>, vs: map<Key, seq<Move>>, exp: set<Key>, curr: Key, t: Key, p: seq<Move>)
    requires IsGrid(root) && Pending(root, fs, vs, exp, curr) && t !in vs && Reaches(root, p, t)
    ensures Pending(root, fs + [(t, p)], vs[t := p], exp, curr)
  {
    ReachedAdd(root, vs, t, p);
    QueueAdd(fs, vs, t, p);
    FrontierKeysPush(fs, (t, p));
    UniquePush(fs, exp + {curr}, (t, p));
    ClosedGrow(exp, vs.Keys, vs.Keys + {t});
  }

  lemma NeighborsAreGrids(g: Grid, ns: seq<(Grid, Move)>)
    requires IsGrid(g) && GetBlankPos(g).Some? && ns == GetNeighbors(g)
    ensures forall j | 0 <= j < |ns| :: IsGrid(ns[j].0) && Step(g, ns[j].1) == Some(ns[j].0)
  {
    forall j | 0 <= j < |ns|
      ensures IsGrid(ns[j].0) && Step(g, ns[j].1) == Some(ns[j].0)
    {
      assert ns[j] in ns;
    }
  }

  /** Once every listed neighbour is seen, every board one move away is seen. */
  lemma AllNeighborsSeen(g: Grid, ns: seq<(Grid, Move)>, seen: set<Key>)
    requires IsGrid(g) && GetBlankPos(g).Some? && ns == GetNeighbors(g)
    requires forall j | 0 <= j < |ns| :: StateToTuple(ns[j].0) in seen
    ensures NeighborsSeen(StateToTuple(g), seen)
  {
    TupleRoundTrip(g);
    forall m | Step(g, m).Some?
      ensures StateToTuple(Step(g, m).value) in seen
    {
      var j :| 0 <= j < |ns| && ns[j] == (Step(g, m).value, m);
    }
  }

  /** Joining a start-side path and an inverted goal-side path at a common board solves. */
  lemma MeetSolves(start: Grid, p: seq<Move>, q: seq<Move>, t: Key)
    requires IsGrid(start) && Reaches(start, p, t) && Reaches(GoalGrid, q, t)
    ensures Solves(start, p + InvertPath(q))
  {
    GoalIsValid();
    var h := ApplyPath(start, p).value;
    var h' := ApplyPath(GoalGrid, q).value;
    StateToTupleInjective(h, h');
    ApplyPathInverse(GoalGrid, q);
    ApplyPathConcat(start, p, InvertPath(q));
  }

  /** From a board whose key is in a neighbour-closed set, every reachable board's key is in it. */
  lemma {:induction false} ClosedContainsReachable(g: Grid, p: seq<Move>, seen: set<Key>)
    requires IsGrid(g) && StateToTuple(g) in seen && ApplyPath(g, p).Some?
    requires Closed(seen, seen)
    ensures StateToTuple(ApplyPath(g, p).value) in seen
    decreases |p|
  {
    if p != [] {
      TupleRoundTrip(g);
      assert NeighborsSeen(StateToTuple(g), seen);
      var h := Step(g, p[0]).value;
      ClosedContainsReachable(h, p[1..], seen);
    }
  }

  /** A start-side search that ran dry without meeting the goal side proves there is no solution. */
  lemma StartSideDry(start: Grid, vs: map<Key, seq<Move>>, vg: map<Key, seq<Move>>, es: set<Key>)
    requires IsGrid(start) && SideInv(start, [], vs, es)
    requires StateToTuple(start) in vs && GoalKey in vg && vs.Keys !! vg.Keys
    ensures forall p :: !Solves(start, p)
  {
    forall p | Solves(start, p)
      ensures false
    {
      ClosedContainsReachable(start, p, vs.Keys);
    }
  }

  /** A goal-side search that ran dry without meeting the start side proves there is no solution. */
  lemma GoalSideDry(start: Grid, vs: map<Key, seq<Move>>, vg: map<Key, seq<Move>>, eg: set<Key>)
    requires IsGrid(start) && SideInv(GoalGrid, [], vg, eg)
    requires StateToTuple(start) in vs && GoalKey in vg && vs.Keys !! vg.Keys
    ensures forall p :: !Solves(start, p)
  {
    GoalIsValid();
    forall p | Solves(start, p)
      ensures false
    {
      var h := ApplyPath(start, p).value;
      StateToTupleInjective(h, GoalGrid);
      ApplyPathBackValid(start, p);
      ApplyPathInverse(start, p);
      ClosedContainsReachable(GoalGrid, InvertPath(p), vg.Keys);
    }
  }

  /** Adding a new key to a set grows it by exactly one. */
  lemma GrowsByOne(s: set<Key>, x: Key, s': set<Key>)
    requires x !in s && s' == s + {x}
    ensures |s'| == |s| + 1
  {
  }

  /** Every expanded key of a side is reached from its root. */
  lemma ExpandedReachable(root: Grid, fs: seq<Entry>, vs: map<Key, seq<Move>>, exp: set<Key>)
    requires IsGrid(root) && SideInv(root, fs, vs, exp)
    ensures forall k | k in exp :: exists p :: Reaches(root, p, k)
  {
    forall k | k in exp
      ensures exists p :: Reaches(root, p, k)
    {
      assert Reaches(root, vs[k], k);
    }
  }

  lemma GoalHasBlank()
    ensures IsGrid(GoalGrid) && GetBlankPos(GoalGrid).Some?
  {
    GoalIsValid();
    BlankUnique(GoalGrid);
  }

  /**
    `bidirectional_search` with at most `fuel` rounds. A found path
    solves the start board; running dry means no solution exists. `es` and
    `eg` are the keys each side expanded: running out of fuel means each
    side expanded `fuel` distinct boards it can reach.
   */
  method BidirectionalSearch(start: Grid, fuel: nat) returns (res: Outcome, nodes: nat, ghost es: set<Key>, ghost eg: set<Key>)
    requires IsGrid(start) && GetBlankPos(start).Some?
    ensures res.Found? ==> Solves(start, res.path)
    ensures StateToTuple(start) == GoalKey <==> res == Found([]) && nodes == 0
    ensures res == Exhausted ==> forall p :: !Solves(start, p)
    ensures res == OutOfFuel ==> nodes == 2 * fuel && |es| == fuel && |eg| == fuel
    ensures res == OutOfFuel ==>
      && (forall k | k in es :: exists p :: Reaches(start, p, k))
      && (forall k | k in eg :: exists q :: Reaches(GoalGrid, q, k))
    ensures nodes <= 2 * fuel
  {
    es, eg := {}, {};
    var startT := StateToTuple(start);
    if startT == GoalKey {
      assert Solves(start, []);
      return Found([]), 0, es, eg;
    }
    GoalHasBlank();
    var fs: seq<Entry> := [(startT, [])];
    var fg: seq<Entry> := [(GoalKey, [])];
    var vs := map[startT := []];
    var vg := map[GoalKey := []];
    InitialSide(start);
    InitialSide(GoalGrid);
    nodes := 0;
    var rounds := 0;
    while |fs| > 0 && |fg| > 0 && rounds < fuel
      invariant SearchInv(start, fs, vs, fg, vg, es, eg)
      invariant rounds <= fuel && nodes == 2 * rounds && |es| == rounds && |eg| == rounds
      decreases fuel - rounds
    {
      var found, steps;
      found, steps, fs, vs, fg, vg, es, eg := Round(start, fs, vs, fg, vg, es, eg);
      nodes := nodes + steps;
      if found.Some? {
        return Found(found.value), nodes, es, eg;
      }
      rounds := rounds + 1;
    }
    if |fs| > 0 && |fg| > 0 {
      ExpandedReachable(start, fs, vs, es);
      ExpandedReachable(GoalGrid, fg, vg, eg);
      return OutOfFuel, nodes, es, eg;
    }
    if |fs| == 0 {
      StartSideDry(start, vs, vg, es);
    } else {
      GoalSideDry(start, vs, vg, eg);
    }
    return Exhausted, nodes, es, eg;
  }

  /**
    Both sides' invariants hold, the two visited maps are disjoint, and
    each side still holds its root board.
   */
  ghost predicate SearchInv(start: Grid, fs: seq<Entry>, vs: map<Key, seq<Move>>, fg: seq<Entry>, vg: map<Key, seq<Move>>,
                            es: set<Key>, eg: set<Key>)
    requires IsGrid(start)
  {
    && IsGrid(GoalGrid)
    && SideInv(start, fs, vs, es) && SideInv(GoalGrid, fg, vg, eg) && vs.Keys !! vg.Keys
    && StateToTuple(start) in vs && GoalKey in vg
  }

  /**
    `path` is the join the solver returns at a meeting key `t` known to both
    sides: the start side's path to `t`, then the goal side's path to `t`
    reversed and inverted.
   */
  ghost predicate JoinedAt(path: seq<Move>, vs: map<Key, seq<Move>>, vg: map<Key, seq<Move>>) {
    exists t :: t in vs && t in vg && path == vs[t] + InvertPath(vg[t])
  }

  /**
    The order of one round: the start side's head is expanded first, and the
    round ends after one expansion exactly when one of its neighbours is known
    to the goal side. Otherwise the goal side's head is expanded, and the
    round meets exactly when one of its neighbours is known to the start side.
    Without a meeting each queue becomes its tail followed by the new entries
    of its popped board's neighbours.
   */
  ghost predicate RoundOrder(fs: seq<Entry>, vs: map<Key, seq<Move>>, fg: seq<Entry>, vg: map<Key, seq<Move>>,
                             found: Option<seq<Move>>, steps: nat, fs': seq<Entry>, vs': map<Key, seq<Move>>,
                             fg': seq<Entry>)
    requires fs != [] && fg != []
  {
    && ((found.Some? && steps == 1) <==> FirstKnown(KeyNeighbors(fs[0].0), vg.Keys).Some?)
    && (steps == 2 ==> (found.Some? <==> FirstKnown(KeyNeighbors(fg[0].0), vs'.Keys).Some?))
    && (found.None? ==> fs' == fs[1..] + NewEntries(KeyNeighbors(fs[0].0), fs[0].1, vs.Keys))
    && (found.None? ==> fg' == fg[1..] + NewEntries(KeyNeighbors(fg[0].0), fg[0].1, vg.Keys))
  }

  /**
    One round of the search loop: one expansion from
    the start side, then, unless the two sides met, one from the goal side.
    `steps` counts the expansions.
   */
  method Round(start: Grid, fs: seq<Entry>, vs: map<Key, seq<Move>>, fg: seq<Entry>, vg: map<Key, seq<Move>>,
               ghost es: set<Key>, ghost eg: set<Key>)
    returns (found: Option<seq<Move>>, steps: nat, fs': seq<Entry>, vs': map<Key, seq<Move>>,
             fg': seq<Entry>, vg': map<Key, seq<Move>>, ghost es': set<Key>, ghost eg': set<Key>)
    requires IsGrid(start) && GetBlankPos(start).Some? && IsGrid(GoalGrid) && GetBlankPos(GoalGrid).Some?
    requires SearchInv(start, fs, vs, fg, vg, es, eg) && fs != [] && fg != []
    ensures found.Some? ==> Solves(start, found.value) && 1 <= steps <= 2
    ensures found.Some? ==> JoinedAt(found.value, vs', vg')
    ensures found.None? ==> steps == 2
    ensures found.None? ==>
      && SearchInv(start, fs', vs', fg', vg', es', eg')
      && |es'| == |es| + 1 && |eg'| == |eg| + 1
    ensures RoundOrder(fs, vs, fg, vg, found, steps, fs', vs', fg')
  {
    var meet;
    meet, fs', vs', es' := ExpandSide(start, fs, vs, vg, es);
    fg', vg', eg' := fg, vg, eg;
    if meet.Some? {
      var t := meet.value;
      MeetSolves(start, vs'[t], vg[t], t);
      assert t in vs' && t in vg';
      return Some(vs'[t] + InvertPath(vg[t])), 1, fs', vs', fg', vg', es', eg';
    }
    GrowsByOne(es, fs[0].0, es');
    meet, fg', vg', eg' := ExpandSide(GoalGrid, fg, vg, vs', eg);
    if meet.Some? {
      var t := meet.value;
      MeetSolves(start, vs'[t], vg'[t], t);
      assert t in vs' && t in vg';
      return Some(vs'[t] + InvertPath(vg'[t])), 2, fs', vs', fg', vg', es', eg';
    }
    GrowsByOne(eg, fg[0].0, eg');
    return None, 2, fs', vs', fg', vg', es', eg';
  }
}

=== FILE: board.dfy ===
/**
  The state codec of the 8-puzzle solver: a board is a 3x3 grid of tiles
  0..8, where 0 is the blank. A grid is flattened row-major into a 9-element
  key, which is what the search engines compare and store.
 */
module Board {
  import opened Options

  /** A board as the solver holds it: a list of three rows of three tiles. */
  type Grid = seq<seq<int>>

  /** The row-major flattening of a grid (the solver's `state_to_tuple`). */
  type Key = seq<int>

  /** A (row, column) cell position, 0-indexed. */
  datatype Pos = Pos(row: int, col: int)

  /** The shape every grid handed to the solver has. */
  predicate IsGrid(g: Grid) {
    |g| == 3 && forall r | 0 <= r < 3 :: |g[r]| == 3
  }

  predicate InBounds(i: int, j: int) {
    0 <= i < 3 && 0 <= j < 3
  }

  /** Cell (i1, j1) comes strictly before cell (i2, j2) in row-major order. */
  predicate RowMajorBefore(i1: int, j1: int, i2: int, j2: int) {
    i1 < i2 || (i1 == i2 && j1 < j2)
  }

  /** A key holding each of the values 0..8 exactly once. */
  predicate ValidKey(k: Key) {
    && |k| == 9
    && (forall n | 0 <= n < 9 :: 0 <= k[n] < 9)
    && (forall n, n' | 0 <= n < n' < 9 :: k[n] != k[n'])
    && (forall v | 0 <= v < 9 :: v in k)
  }

  /** A well-formed grid: 3x3 and a permutation of 0..8. */
  predicate ValidGrid(g: Grid) {
    IsGrid(g) && ValidKey(StateToTuple(g))
  }

  /** Flattens a grid row-major. */
  function StateToTuple(g: Grid): (k: Key)
    requires IsGrid(g)
    ensures |k| == 9
    ensures forall i, j | InBounds(i, j) :: k[3 * i + j] == g[i][j]
  {
    g[0] + g[1] + g[2]
  }

  /** Rebuilds a grid from a key, three consecutive elements per row. */
  function FromTuple(k: Key): (g: Grid)
    requires |k| == 9
    ensures IsGrid(g)
    ensures StateToTuple(g) == k
  {
    [k[0..3], k[3..6], k[6..9]]
  }

  /** The fixed goal board. */
  const GoalGrid: Grid := [[1, 2, 3], [4, 5, 6], [7, 8, 0]]

  /** The goal board's key. */
  const GoalKey: Key := StateToTuple(GoalGrid)

  lemma GoalIsValid()
    ensures ValidGrid(GoalGrid)
    ensures GoalKey == [1, 2, 3, 4, 5, 6, 7, 8, 0]
  {
    var k := GoalKey;
    assert k == GoalGrid[0] + GoalGrid[1] + GoalGrid[2];
    assert k == [1, 2, 3, 4, 5, 6, 7, 8, 0];
    assert forall n | 0 <= n < 8 :: k[n] == n + 1;
    assert k[8] == 0;
    forall v | 0 <= v < 9
      ensures v in k
    {
      if v == 0 {
        assert k[8] == v;
      } else {
        assert k[v - 1] == v;
      }
    }
  }

  /** Rebuilding a grid from its own key gives the grid back. */
  lemma TupleRoundTrip(g: Grid)
    requires IsGrid(g)
    ensures FromTuple(StateToTuple(g)) == g
  {
    var k := StateToTuple(g);
    assert k[0..3] == g[0];
    assert k[3..6] == g[1];
    assert k[6..9] == g[2];
  }

  /** Two grids have the same key exactly when they are the same grid. */
  lemma StateToTupleInjective(a: Grid, b: Grid)
    requires IsGrid(a) && IsGrid(b)
    ensures StateToTuple(a) == StateToTuple(b) <==> a == b
  {
    TupleRoundTrip(a);
    TupleRoundTrip(b);
  }

  /** Two grids agreeing on every cell are equal. */
  lemma GridExt(a: Grid, b: Grid)
    requires IsGrid(a) && IsGrid(b)
    requires forall i, j | InBounds(i, j) :: a[i][j] == b[i][j]
    ensures a == b
  {
    forall r | 0 <= r < 3
      ensures a[r] == b[r]
    {
      assert forall c | 0 <= c < 3 :: a[r][c] == b[r][c] by {
        forall c | 0 <= c < 3
          ensures a[r][c] == b[r][c]
        {
          assert InBounds(r, c);
        }
      }
    }
  }

  /**
    Finds the blank by scanning rows then columns; `None` when the grid holds
    no 0 (the solver's scan then falls off the end of its loops).
   */
  function GetBlankPos(g: Grid): (b: Option<Pos>)
    requires IsGrid(g)
    ensures b.Some? ==> InBounds(b.value.row, b.value.col) && g[b.value.row][b.value.col] == 0
  {
    ScanForBlank(g, 0, 0)
  }

  /** The row-major scan of `GetBlankPos`, resumed at cell (i, j). */
  function ScanForBlank(g: Grid, i: nat, j: nat): (b: Option<Pos>)
    requires IsGrid(g) && i <= 3 && j <= 3
    requires i == 3 ==> j == 0
    ensures b.Some? ==> InBounds(b.value.row, b.value.col) && g[b.value.row][b.value.col] == 0
    decreases 3 - i, 3 - j
  {
    if i == 3 then None
    else if j == 3 then ScanForBlank(g, i + 1, 0)
    else if g[i][j] == 0 then Some(Pos(i, j))
    else ScanForBlank(g, i, j + 1)
  }

  /**
    The scan resumed at (i, j) finds the first 0 at or after (i, j) in
    row-major order, and finds nothing exactly when there is none.
   */
  lemma {:induction false} ScanForBlankFirst(g: Grid, i: nat, j: nat)
    requires IsGrid(g) && i <= 3 && j <= 3
    requires i == 3 ==> j == 0
    ensures var b := ScanForBlank(g, i, j);
      b.Some? ==> (!RowMajorBefore(b.value.row, b.value.col, i, j) &&
        forall i', j' | InBounds(i', j') && !RowMajorBefore(i', j', i, j)
                        && RowMajorBefore(i', j', b.value.row, b.value.col) :: g[i'][j'] != 0)
    ensures ScanForBlank(g, i, j).None? <==>
      forall i', j' | InBounds(i', j') && !RowMajorBefore(i', j', i, j) :: g[i'][j'] != 0
    decreases 3 - i, 3 - j
  {
    if i == 3 {
    } else if j == 3 {
      ScanForBlankFirst(g, i + 1, 0);
    } else if g[i][j] != 0 {
      ScanForBlankFirst(g, i, j + 1);
    }
  }

  /**
    `GetBlankPos` returns the first 0 in row-major order, and `None` exactly
    when the grid has no 0.
   */
  lemma GetBlankPosFirst(g: Grid)
    requires IsGrid(g)
    ensures var b := GetBlankPos(g);
      b.Some? ==> forall i, j | InBounds(i, j) && RowMajorBefore(i, j, b.value.row, b.value.col) :: g[i][j] != 0
    ensures GetBlankPos(g).None? <==> forall i, j | InBounds(i, j) :: g[i][j] != 0
  {
    ScanForBlankFirst(g, 0, 0);
  }

  /** In a valid grid the blank exists and is the only 0. */
  lemma BlankUnique(g: Grid)
    requires ValidGrid(g)
    ensures GetBlankPos(g).Some?
    ensures forall i, j | InBounds(i, j) && g[i][j] == 0 :: GetBlankPos(g) == Some(Pos(i, j))
  {
    var k := StateToTuple(g);
    assert 0 in k;
    var n :| 0 <= n < 9 && k[n] == 0;
    assert InBounds(n / 3, n % 3) && 3 * (n / 3) + n % 3 == n;
    assert g[n / 3][n % 3] == 0;
    GetBlankPosFirst(g);
    var b := GetBlankPos(g).value;
    forall i, j | InBounds(i, j) && g[i][j] == 0
      ensures b == Pos(i, j)
    {
      assert k[3 * i + j] == k[3 * b.row + b.col];
    }
  }

  /**
    A new grid equal to `g` except that cells (i1, j1) and (i2, j2) are
    exchanged; `g` itself is a value and stays as it was.
   */
  function SwapAndCreate(g: Grid, i1: int, j1: int, i2: int, j2: int): (h: Grid)
    requires IsGrid(g) && InBounds(i1, j1) && InBounds(i2, j2)
    ensures IsGrid(h)
    ensures h[i1][j1] == g[i2][j2] && h[i2][j2] == g[i1][j1]
    ensures forall i, j | InBounds(i, j) && Pos(i, j) != Pos(i1, j1) && Pos(i, j) != Pos(i2, j2) :: h[i][j] == g[i][j]
  {
    var v1 := g[i1][j1];
    var v2 := g[i2][j2];
    var s := g[i1 := g[i1][j1 := v2]];
    s[i2 := s[i2][j2 := v1]]
  }

  /** Exchanging the same two cells twice gives the original grid back. */
  lemma SwapTwice(g: Grid, i1: int, j1: int, i2: int, j2: int)
    requires IsGrid(g) && InBounds(i1, j1) && InBounds(i2, j2)
    ensures SwapAndCreate(SwapAndCreate(g, i1, j1, i2, j2), i1, j1, i2, j2) == g
    ensures SwapAndCreate(SwapAndCreate(g, i1, j1, i2, j2), i2, j2, i1, j1) == g
  {
    var h := SwapAndCreate(g, i1, j1, i2, j2);
    GridExt(SwapAndCreate(h, i1, j1, i2, j2), g);
    GridExt(SwapAndCreate(h, i2, j2, i1, j1), g);
  }

  /** On keys, `SwapAndCreate` exchanges the two row-major positions. */
  lemma SwapAndCreateKey(g: Grid, i1: int, j1: int, i2: int, j2: int)
    requires IsGrid(g) && InBounds(i1, j1) && InBounds(i2, j2)
    ensures var k, k' := StateToTuple(g), StateToTuple(SwapAndCreate(g, i1, j1, i2, j2));
      && k'[3 * i1 + j1] == k[3 * i2 + j2]
      && k'[3 * i2 + j2] == k[3 * i1 + j1]
      && forall n | 0 <= n < 9 && n != 3 * i1 + j1 && n != 3 * i2 + j2 :: k'[n] == k[n]
  {
    var h := SwapAndCreate(g, i1, j1, i2, j2);
    var k, k' := StateToTuple(g), StateToTuple(h);
    forall n | 0 <= n < 9 && n != 3 * i1 + j1 && n != 3 * i2 + j2
      ensures k'[n] == k[n]
    {
      var i, j := n / 3, n % 3;
      assert InBounds(i, j) && 3 * i + j == n;
      assert h[i][j] == g[i][j];
    }
  }

  /** Exchanging two positions of a valid key gives a valid key. */
  lemma SwapKeepsValidKey(k: Key, k': Key, p: int, q: int)
    requires ValidKey(k) && |k'| == 9 && 0 <= p < 9 && 0 <= q < 9
    requires k'[p] == k[q] && k'[q] == k[p]
    requires forall n | 0 <= n < 9 && n != p && n != q :: k'[n] == k[n]
    ensures ValidKey(k')
  {
    forall v | 0 <= v < 9
      ensures v in k'
    {
      assert v in k;
      var n :| 0 <= n < 9 && k[n] == v;
      if n == p {
        assert k'[q] == v;
      } else if n == q {
        assert k'[p] == v;
      } else {
        assert k'[n] == v;
      }
    }
  }

  /** `SwapAndCreate` keeps a grid a permutation of 0..8. */
  lemma SwapAndCreateKeepsValid(g: Grid, i1: int, j1: int, i2: int, j2: int)
    requires ValidGrid(g) && InBounds(i1, j1) && InBounds(i2, j2)
    ensures ValidGrid(SwapAndCreate(g, i1, j1, i2, j2))
  {
    SwapAndCreateKey(g, i1, j1, i2, j2);
    SwapKeepsValidKey(StateToTuple(g), StateToTuple(SwapAndCreate(g, i1, j1, i2, j2)), 3 * i1 + j1, 3 * i2 + j2);
  }
}

=== FILE: ids.dfy ===
/**
  Iterative deepening: a depth-limited depth-first search whose visited set
  holds exactly the boards on the current branch, run with depth bounds
  0, 1, 2, ... and a node counter shared across all rounds.
 */
module DepthLimited {
  import opened Options
  import opened Board
  import opened Moves
  import opened Walks

  /**
    Depth-limited search from `state` with `depth` moves left. `path` is the
    path so far; `visited` holds the keys on the current branch and is
    handed back, as the solver mutates one shared set; `nodes` counts calls.
   */
  method Dls(state: Grid, depth: nat, path: seq<Move>, visited: set<Key>, nodes: nat)
    returns (res: Option<seq<Move>>, visited': set<Key>, nodes': nat)
    requires IsGrid(state)
    requires depth > 0 ==> GetBlankPos(state).Some?
    ensures nodes' > nodes
    ensures StateToTuple(state) == GoalKey ==> res == Some(path)
    ensures res.Some? ==>
      && |path| <= |res.value| <= |path| + depth
      && res.value[..|path|] == path
      && Solves(state, res.value[|path|..])
    ensures res.Some? ==> Fresh(state, res.value[|path|..], visited)
    ensures res.Some? ==> NoEarlierSolution(state, depth, visited, res.value[|path|..])
    ensures res.None? ==> visited' == visited
    ensures res.None? ==> forall p | |p| <= depth && Fresh(state, p, visited) :: !Solves(state, p)
    ensures visited <= visited'
    decreases depth, 2
  {
    nodes' := nodes + 1;
    visited' := visited;
    if StateToTuple(state) == GoalKey {
      assert path[|path|..] == [];
      return Some(path), visited', nodes';
    }
    if depth == 0 {
      return None, visited', nodes';
    }
    var k := 0;
    while k < |MoveOrder|
      invariant 0 <= k <= 4
      invariant visited' == visited
      invariant nodes' > nodes
      invariant forall j | 0 <= j < k :: FirstMoveFails(state, depth, visited, MoveOrder[j])
    {
      var r;
      r, visited', nodes' := TryMove(state, depth, path, visited', nodes', MoveOrder[k]);
      if r.Some? {
        EarliestThroughMove(state, depth, visited, k, r.value[|path|..]);
        return r, visited', nodes';
      }
      FirstMovesFailExtend(state, depth, visited, k);
      k := k + 1;
    }
    NoSolutionAtAll(state, depth, visited);
    return None, visited', nodes';
  }

  /**
    One pass of the loop over moves in `Dls`: when `m` is legal and leads to
    a board off the current branch, that board joins the branch and the
    search recurses one level deeper; on failure the board leaves the branch.
   */
  method TryMove(state: Grid, depth: nat, path: seq<Move>, visited: set<Key>, nodes: nat, m: Move)
    returns (res: Option<seq<Move>>, visited': set<Key>, nodes': nat)
    requires IsGrid(state) && depth > 0 && GetBlankPos(state).Some?
    ensures nodes' >= nodes
    ensures res.Some? ==>
      && |path| < |res.value| <= |path| + depth
      && res.value[..|path|] == path
      && Solves(state, res.value[|path|..])
    ensures res.Some? ==> res.value[|path|] == m
    ensures res.Some? ==> Fresh(state, res.value[|path|..], visited)
    ensures res.Some? ==> NoEarlierThrough(state, depth, visited, m, res.value[|path|..])
    ensures res.None? ==> visited' == visited && FirstMoveFails(state, depth, visited, m)
    ensures visited <= visited'
    decreases depth, 1
  {
    visited' := visited;
    nodes' := nodes;
    var blank := GetBlankPos(state).value;
    var newI, newJ := blank.row + Delta(m).0, blank.col + Delta(m).1;
    if !InBounds(newI, newJ) {
      IllegalMoveNotFresh(state, m, depth, visited);
      return None, visited', nodes';
    }
    var newState := SwapAndCreate(state, blank.row, blank.col, newI, newJ);
    assert Step(state, m) == Some(newState);
    var t := StateToTuple(newState);
    if t in visited' {
      StaleMoveNotFresh(state, m, depth, visited);
      return None, visited', nodes';
    }
    res, visited', nodes' := Descend(state, depth, path, visited, nodes, m, newState);
  }

  /**
    The legal move `m` leads to `next`, a board off the current branch:
    `next` joins the branch, the search recurses one level deeper, and on
    failure `next` leaves the branch again.
   */
  method Descend(state: Grid, depth: nat, path: seq<Move>, visited: set<Key>, nodes: nat, m: Move, next: Grid)
    returns (res: Option<seq<Move>>, visited': set<Key>, nodes': nat)
    requires IsGrid(state) && depth > 0 && GetBlankPos(state).Some?
    requires Step(state, m) == Some(next) && StateToTuple(next) !in visited
    ensures nodes' > nodes
    ensures res.Some? ==>
      && |path| < |res.value| <= |path| + depth
      && res.value[..|path|] == path
      && res.value[|path|] == m
      && Solves(state, res.value[|path|..])
    ensures res.Some? ==> Fresh(state, res.value[|path|..], visited)
    ensures res.Some? ==> NoEarlierThrough(state, depth, visited, m, res.value[|path|..])
    ensures res.None? ==> visited' == visited && FirstMoveFails(state, depth, visited, m)
    ensures visited <= visited'
    decreases depth, 0
  {
    var t := StateToTuple(next);
    StepKeepsBlank(state, m);
    var r;
    r, visited', nodes' := Dls(next, depth - 1, path + [m], visited + {t}, nodes);
    if r.Some? && r.value != [] {
      FoundThroughMove(state, m, depth, visited, path, r.value);
      return r, visited', nodes';
    }
    FailureThroughMove(state, m, depth, visited);
    return None, visited' - {t}, nodes';
  }

  /** No fresh solution of at most `depth` moves from `state` starts with `m`. */
  ghost predicate FirstMoveFails(state: Grid, depth: nat, visited: set<Key>, m: Move)
    requires IsGrid(state)
  {
    forall p | |p| <= depth && Fresh(state, p, visited) && p != [] && p[0] == m :: !Solves(state, p)
  }

  /** No fresh solution of at most `depth` moves from `state` comes before `s` in search order. */
  ghost predicate NoEarlierSolution(state: Grid, depth: nat, visited: set<Key>, s: seq<Move>)
    requires IsGrid(state)
  {
    forall q | |q| <= depth && Fresh(state, q, visited) && Precedes(q, s) :: !Solves(state, q)
  }

  /** As `NoEarlierSolution`, for the paths that start with `m`. */
  ghost predicate NoEarlierThrough(state: Grid, depth: nat, visited: set<Key>, m: Move, s: seq<Move>)
    requires IsGrid(state)
  {
    forall q | |q| <= depth && Fresh(state, q, visited) && q != [] && q[0] == m && Precedes(q, s) :: !Solves(state, q)
  }

  /**
    The first solution found below the move at position `k` of the order is
    the earliest of all: every earlier move was ruled out, and later moves
    come after it.
   */
  lemma EarliestThroughMove(state: Grid, depth: nat, visited: set<Key>, k: nat, s: seq<Move>)
    requires IsGrid(state) && StateToTuple(state) != GoalKey && k < 4
    requires forall j | 0 <= j < k :: FirstMoveFails(state, depth, visited, MoveOrder[j])
    requires s != [] && s[0] == MoveOrder[k] && NoEarlierThrough(state, depth, visited, MoveOrder[k], s)
    ensures NoEarlierSolution(state, depth, visited, s)
  {
    forall q | |q| <= depth && Fresh(state, q, visited) && Precedes(q, s)
      ensures !Solves(state, q)
    {
      EarlierMoveFails(state, depth, visited, k, s, q);
    }
  }

  /** One path of `EarliestThroughMove`, split on how its first move compares with the `k`-th. */
  lemma EarlierMoveFails(state: Grid, depth: nat, visited: set<Key>, k: nat, s: seq<Move>, q: seq<Move>)
    requires IsGrid(state) && StateToTuple(state) != GoalKey && k < 4
    requires forall j | 0 <= j < k :: FirstMoveFails(state, depth, visited, MoveOrder[j])
    requires s != [] && s[0] == MoveOrder[k] && NoEarlierThrough(state, depth, visited, MoveOrder[k], s)
    requires |q| <= depth && Fresh(state, q, visited) && Precedes(q, s)
    ensures !Solves(state, q)
  {
    IndexOfMoveOrder(k);
    if q == [] {
      assert ApplyPath(state, q) == Some(state);
    } else if Index(q[0]) < k {
      assert FirstMoveFails(state, depth, visited, MoveOrder[Index(q[0])]);
    } else {
      assert q[0] == MoveOrder[k];
    }
  }

  /**
    A solution found below the successor through `m` is fresh from `state`,
    and no fresh solution starting with `m` comes before it.
   */
  lemma FirstThroughMove(state: Grid, m: Move, depth: nat, visited: set<Key>, s: seq<Move>)
    requires IsGrid(state) && depth > 0 && Step(state, m).Some?
    requires StateToTuple(Step(state, m).value) !in visited
    requires s != [] && s[0] == m
    requires var h := Step(state, m).value; var vis := visited + {StateToTuple(h)};
      Fresh(h, s[1..], vis) && NoEarlierSolution(h, depth - 1, vis, s[1..])
    ensures Fresh(state, s, visited)
    ensures NoEarlierThrough(state, depth, visited, m, s)
  {
    forall q | |q| <= depth && Fresh(state, q, visited) && q != [] && q[0] == m && Precedes(q, s)
      ensures !Solves(state, q)
    {
      EarlierThroughMoveFails(state, m, depth, visited, s, q);
    }
  }

  /** One path of `FirstThroughMove`: its tail is fresh below `m` and comes before the found tail. */
  lemma EarlierThroughMoveFails(state: Grid, m: Move, depth: nat, visited: set<Key>, s: seq<Move>, q: seq<Move>)
    requires IsGrid(state) && depth > 0 && Step(state, m).Some?
    requires s != [] && s[0] == m
    requires var h := Step(state, m).value; NoEarlierSolution(h, depth - 1, visited + {StateToTuple(h)}, s[1..])
    requires |q| <= depth && Fresh(state, q, visited) && q != [] && q[0] == m && Precedes(q, s)
    ensures !Solves(state, q)
  {
    var h := Step(state, m).value;
    FreshTail(state, q, visited);
    assert |q[1..]| <= depth - 1 && Fresh(h, q[1..], visited + {StateToTuple(h)}) && Precedes(q[1..], s[1..]);
    ApplyPathStep(state, q);
  }

  /** Ruling out the move at position `k` of the move order extends the ruled-out prefix. */
  lemma FirstMovesFailExtend(state: Grid, depth: nat, visited: set<Key>, k: nat)
    requires IsGrid(state) && k < 4
    requires forall j | 0 <= j < k :: FirstMoveFails(state, depth, visited, MoveOrder[j])
    requires FirstMoveFails(state, depth, visited, MoveOrder[k])
    ensures forall j | 0 <= j < k + 1 :: FirstMoveFails(state, depth, visited, MoveOrder[j])
  {
  }

  /** A solution found below the successor through `m` is a solution from `state`. */
  lemma SuccessThroughMove(state: Grid, m: Move, path: seq<Move>, found: seq<Move>)
    requires IsGrid(state) && Step(state, m).Some?
    requires |path + [m]| <= |found| && found[..|path + [m]|] == path + [m]
    requires Solves(Step(state, m).value, found[|path + [m]|..])
    ensures |path| <= |found| && found[..|path|] == path
    ensures Solves(state, found[|path|..])
  {
    var suffix := found[|path|..];
    assert suffix[0] == (path + [m])[|path|];
    assert suffix[1..] == found[|path + [m]|..];
    assert found[..|path|] == (path + [m])[..|path|];
    ApplyPathStep(state, suffix);
  }

  /**
    Everything `TryMove` promises about a path found below the successor
    through `m`, from what `Dls` promises about it one level down.
   */
  lemma FoundThroughMove(state: Grid, m: Move, depth: nat, visited: set<Key>, path: seq<Move>, found: seq<Move>)
    requires IsGrid(state) && depth > 0 && Step(state, m).Some?
    requires StateToTuple(Step(state, m).value) !in visited
    requires |path + [m]| <= |found| && found[..|path + [m]|] == path + [m]
    requires var h := Step(state, m).value; var vis := visited + {StateToTuple(h)};
      var rest := found[|path + [m]|..];
      Solves(h, rest) && Fresh(h, rest, vis) && NoEarlierSolution(h, depth - 1, vis, rest)
    ensures |path| < |found| && found[..|path|] == path && found[|path|] == m
    ensures Solves(state, found[|path|..])
    ensures Fresh(state, found[|path|..], visited)
    ensures NoEarlierThrough(state, depth, visited, m, found[|path|..])
  {
    assert found[|path|] == (path + [m])[|path|];
    SuccessThroughMove(state, m, path, found);
    var s := found[|path|..];
    assert s[1..] == found[|path + [m]|..];
    FirstThroughMove(state, m, depth, visited, s);
  }

  /** Paths whose first move ran into an exhausted subtree do not solve. */
  lemma FailureThroughMove(state: Grid, m: Move, depth: nat, visited: set<Key>)
    requires IsGrid(state) && depth > 0 && Step(state, m).Some?
    requires var h := Step(state, m).value;
      forall p | |p| <= depth - 1 && Fresh(h, p, visited + {StateToTuple(h)}) :: !Solves(h, p)
    ensures FirstMoveFails(state, depth, visited, m)
  {
    forall p | |p| <= depth && Fresh(state, p, visited) && p != [] && p[0] == m
      ensures !Solves(state, p)
    {
      var h := Step(state, m).value;
      FreshTail(state, p, visited);
      assert !Solves(h, p[1..]);
      ApplyPathStep(state, p);
    }
  }

  /** No fresh path starts with a move onto a board already on the branch. */
  lemma StaleMoveNotFresh(state: Grid, m: Move, depth: nat, visited: set<Key>)
    requires IsGrid(state) && Step(state, m).Some? && StateToTuple(Step(state, m).value) in visited
    ensures FirstMoveFails(state, depth, visited, m)
  {
  }

  /** No fresh path starts with an illegal move. */
  lemma IllegalMoveNotFresh(state: Grid, m: Move, depth: nat, visited: set<Key>)
    requires IsGrid(state) && Step(state, m).None?
    ensures FirstMoveFails(state, depth, visited, m)
  {
  }

  /** Once every first move is ruled out, only the empty path remains, and it fails. */
  lemma NoSolutionAtAll(state: Grid, depth: nat, visited: set<Key>)
    requires IsGrid(state) && StateToTuple(state) != GoalKey
    requires forall j | 0 <= j < 4 :: FirstMoveFails(state, depth, visited, MoveOrder[j])
    ensures forall p | |p| <= depth && Fresh(state, p, visited) :: !Solves(state, p)
  {
    forall p | |p| <= depth && Fresh(state, p, visited)
      ensures !Solves(state, p)
    {
      if p != [] {
        assert FirstMoveFails(state, depth, visited, MoveOrder[Index(p[0])]);
      }
    }
  }

  /**
    Runs `Dls` with depth bounds 0, 1, ..., `maxDepth`, stopping at the
    first non-empty path; `None` when no bound up to `maxDepth` produced one.
   */
  method IterativeDeepening(start: Grid, maxDepth: nat) returns (res: Option<seq<Move>>, nodes: nat)
    requires IsGrid(start) && GetBlankPos(start).Some?
    ensures res.Some? ==> Solves(start, res.value) && |res.value| <= maxDepth
    ensures res.Some? ==> forall p | |p| < |res.value| :: !Solves(start, p)
    ensures res.Some? ==> forall q | |q| == |res.value| && Solves(start, q) :: !Precedes(q, res.value)
    ensures res.None? && StateToTuple(start) != GoalKey ==> forall p | |p| <= maxDepth :: !Solves(start, p)
    ensures StateToTuple(start) == GoalKey ==> res.None?
    ensures res.Some? ==> nodes >= |res.value| + 1
    ensures res.None? ==> nodes >= maxDepth + 1
  {
    var depth := 0;
    nodes := 0;
    while depth <= maxDepth
      invariant depth <= maxDepth + 1
      invariant nodes >= depth
      invariant StateToTuple(start) != GoalKey ==> forall p | |p| < depth :: !Solves(start, p)
    {
      var visited := {StateToTuple(start)};
      var r, _, n := Dls(start, depth, [], visited, nodes);
      nodes := n;
      if r.Some? && r.value != [] {
        assert r.value[0..] == r.value;
        forall q | |q| == |r.value| && Solves(start, q)
          ensures !Precedes(q, r.value)
        {
          ShortestIsFresh(start, q);
        }
        return r, nodes;
      }
      if StateToTuple(start) != GoalKey {
        NoFreshSolutionMeansNone(start, depth);
      }
      depth := depth + 1;
    }
    return None, nodes;
  }
}

=== FILE: moves.dfy ===
/**
  The move model: the blank travels Up, Down, Left or Right, exchanging
  places with the tile it moves onto. Paths are sequences of moves applied
  left to right.
 */
module Moves {
  import opened Options
  import opened Board

  /** The direction the blank travels. */
  datatype Move = Up | Down | Left | Right

  /** The fixed enumeration order of moves (the solver's `moves` table). */
  const MoveOrder: seq<Move> := [Up, Down, Left, Right]

  /** The solver's `moves` table of (row, column) displacements, in the same order. */
  const MoveDeltas: seq<(int, int)> := [(-1, 0), (1, 0), (0, -1), (0, 1)]

  /** The solver's `move_names` table, in the same order. */
  const MoveNames: seq<string> := ["Up", "Down", "Left", "Right"]

  /** The position of a move in `MoveOrder`. */
  function Index(m: Move): (n: nat)
    ensures n < 4 && MoveOrder[n] == m
  {
    match m
    case Up => 0
    case Down => 1
    case Left => 2
    case Right => 3
  }

  /** `Index` and `MoveOrder` are inverse to each other. */
  lemma IndexOfMoveOrder(k: nat)
    requires k < 4
    ensures Index(MoveOrder[k]) == k
  {
  }

  /** (row, column) displacement of the blank: one cell along exactly one axis. */
  function Delta(m: Move): (d: (int, int))
    ensures d.0 * d.0 + d.1 * d.1 == 1
  {
    match m
    case Up => (-1, 0)
    case Down => (1, 0)
    case Left => (0, -1)
    case Right => (0, 1)
  }

  /** The name the solver reports for a move: its entry in `move_names`. */
  function Name(m: Move): (r: string)
    ensures r == MoveNames[Index(m)]
  {
    match m
    case Up => "Up"
    case Down => "Down"
    case Left => "Left"
    case Right => "Right"
  }

  /** The opposite move (the solver's `inverse_move` table). */
  function Inverse(m: Move): (r: Move)
    ensures Delta(r).0 == -Delta(m).0 && Delta(r).1 == -Delta(m).1
  {
    match m
    case Up => Down
    case Down => Up
    case Left => Right
    case Right => Left
  }

  /** The solver pairs the two tables position by position: move k has displacement and name k. */
  lemma MoveTables(k: nat)
    requires k < 4
    ensures Delta(MoveOrder[k]) == MoveDeltas[k] && Name(MoveOrder[k]) == MoveNames[k]
  {
  }

  /** Different moves displace the blank differently. */
  lemma DeltaInjective(m: Move, m': Move)
    ensures Delta(m) == Delta(m') <==> m == m'
  {
  }

  /** Different moves have different names, so a path of names determines the path of moves. */
  lemma NameInjective(m: Move, m': Move)
    ensures Name(m) == Name(m') <==> m == m'
  {
    assert Name(m)[0] == Name(m')[0] ==> m == m';
  }

  /** Where the blank at `b` lands after move `m` (possibly off the board). */
  function Target(b: Pos, m: Move): Pos {
    Pos(b.row + Delta(m).0, b.col + Delta(m).1)
  }

  /**
    The board reached from `g` by moving the blank in direction `m`, or `None`
    when `g` has no blank or the move would leave the board.
   */
  function Step(g: Grid, m: Move): (r: Option<Grid>)
    requires IsGrid(g)
    ensures r.Some? <==> GetBlankPos(g).Some? && InBounds(Target(GetBlankPos(g).value, m).row, Target(GetBlankPos(g).value, m).col)
    ensures r.Some? ==> IsGrid(r.value)
  {
    match GetBlankPos(g)
    case None => None
    case Some(b) =>
      var t := Target(b, m);
      if InBounds(t.row, t.col) then Some(SwapAndCreate(g, b.row, b.col, t.row, t.col)) else None
  }

  /** After a legal move the blank sits at its target cell. */
  lemma StepKeepsBlank(g: Grid, m: Move)
    requires IsGrid(g) && Step(g, m).Some?
    ensures var t := Target(GetBlankPos(g).value, m); Step(g, m).value[t.row][t.col] == 0
    ensures GetBlankPos(Step(g, m).value).Some?
  {
    var b := GetBlankPos(g).value;
    var t := Target(b, m);
    assert Step(g, m).value == SwapAndCreate(g, b.row, b.col, t.row, t.col);
  }

  /** A legal move is the exchange of the blank with the cell it moves onto. */
  lemma StepIsSwap(g: Grid, m: Move)
    requires IsGrid(g) && Step(g, m).Some?
    ensures var b := GetBlankPos(g).value; var t := Target(b, m);
      InBounds(b.row, b.col) && InBounds(t.row, t.col) &&
      Step(g, m) == Some(SwapAndCreate(g, b.row, b.col, t.row, t.col))
  {
  }

  /** In a valid grid the blank moves to its target and the grid stays valid. */
  lemma StepMovesBlank(g: Grid, m: Move)
    requires ValidGrid(g) && Step(g, m).Some?
    ensures ValidGrid(Step(g, m).value)
    ensures GetBlankPos(Step(g, m).value) == Some(Target(GetBlankPos(g).value, m))
  {
    var b := GetBlankPos(g).value;
    var t := Target(b, m);
    StepIsSwap(g, m);
    var h := SwapAndCreate(g, b.row, b.col, t.row, t.col);
    SwapAndCreateKeepsValid(g, b.row, b.col, t.row, t.col);
    assert h[t.row][t.col] == 0;
    BlankUnique(h);
  }

  /** Once the blank sits at its target, the inverse move brings the grid back. */
  lemma StepUndo(g: Grid, m: Move)
    requires IsGrid(g) && Step(g, m).Some?
    requires GetBlankPos(Step(g, m).value) == Some(Target(GetBlankPos(g).value, m))
    ensures Step(Step(g, m).value, Inverse(m)) == Some(g)
  {
    var b := GetBlankPos(g).value;
    var t := Target(b, m);
    StepIsSwap(g, m);
    var h := Step(g, m).value;
    assert Target(t, Inverse(m)) == b;
    StepIsSwap(h, Inverse(m));
    SwapTwice(g, b.row, b.col, t.row, t.col);
  }

  /**
    In a valid grid a legal move keeps the grid valid, puts the blank at the
    old blank position plus the direction, and the inverse move undoes it.
   */
  lemma StepInverse(g: Grid, m: Move)
    requires ValidGrid(g) && Step(g, m).Some?
    ensures ValidGrid(Step(g, m).value)
    ensures GetBlankPos(Step(g, m).value) == Some(Target(GetBlankPos(g).value, m))
    ensures Step(Step(g, m).value, Inverse(m)) == Some(g)
  {
    StepMovesBlank(g, m);
    StepUndo(g, m);
  }

  /** Going back through a legal move: a grid that steps to a valid grid is valid. */
  lemma StepBackValid(g: Grid, m: Move)
    requires IsGrid(g) && Step(g, m).Some? && ValidGrid(Step(g, m).value)
    ensures ValidGrid(g)
  {
    var b := GetBlankPos(g).value;
    var t := Target(b, m);
    StepIsSwap(g, m);
    var h := SwapAndCreate(g, b.row, b.col, t.row, t.col);
    SwapAndCreateKeepsValid(h, b.row, b.col, t.row, t.col);
    SwapTwice(g, b.row, b.col, t.row, t.col);
  }

  /** The legal successors of `g` among `MoveOrder[k..]`, in that order. */
  function NeighborsFrom(g: Grid, k: nat): (ns: seq<(Grid, Move)>)
    requires IsGrid(g) && k <= 4
    ensures |ns| <= 4 - k
    ensures forall n | n in ns :: k <= Index(n.1) && Step(g, n.1) == Some(n.0)
    ensures forall a, c | 0 <= a < c < |ns| :: Index(ns[a].1) < Index(ns[c].1)
    ensures forall m | k <= Index(m) && Step(g, m).Some? :: (Step(g, m).value, m) in ns
    decreases 4 - k
  {
    if k == 4 then []
    else
      var m := MoveOrder[k];
      IndexOfMoveOrder(k);
      var rest := NeighborsFrom(g, k + 1);
      match Step(g, m)
      case Some(h) => [(h, m)] + rest
      case None => rest
  }

  /**
    The legal successors of `g`, each with the move leading to it, in the
    fixed order Up, Down, Left, Right; every board has between two and four.
   */
  function GetNeighbors(g: Grid): (ns: seq<(Grid, Move)>)
    requires IsGrid(g) && GetBlankPos(g).Some?
    ensures 2 <= |ns| <= 4
    ensures forall n | n in ns :: Step(g, n.1) == Some(n.0)
    ensures forall a, c | 0 <= a < c < |ns| :: Index(ns[a].1) < Index(ns[c].1)
    ensures forall m | Step(g, m).Some? :: (Step(g, m).value, m) in ns
  {
    var ns := NeighborsFrom(g, 0);
    AtLeastTwoNeighbors(g, ns);
    ns
  }

  /** Every blank position has a legal vertical and a legal horizontal move. */
  lemma AtLeastTwoNeighbors(g: Grid, ns: seq<(Grid, Move)>)
    requires IsGrid(g) && GetBlankPos(g).Some?
    requires forall m | Step(g, m).Some? :: (Step(g, m).value, m) in ns
    ensures |ns| >= 2
  {
    var b := GetBlankPos(g).value;
    var v, h := VerticalMove(b), HorizontalMove(b);
    TwoDistinctEntries(ns, Step(g, v).value, v, Step(g, h).value, h);
  }

  /** From any cell the blank can move up or down without leaving the board. */
  function VerticalMove(b: Pos): (v: Move)
    requires InBounds(b.row, b.col)
    ensures (v == Up || v == Down) && InBounds(Target(b, v).row, Target(b, v).col)
  {
    if b.row > 0 then Up else Down
  }

  /** From any cell the blank can move left or right without leaving the board. */
  function HorizontalMove(b: Pos): (h: Move)
    requires InBounds(b.row, b.col)
    ensures (h == Left || h == Right) && InBounds(Target(b, h).row, Target(b, h).col)
  {
    if b.col > 0 then Left else Right
  }

  /** A sequence holding two entries with different moves has at least two elements. */
  lemma TwoDistinctEntries(ns: seq<(Grid, Move)>, x: Grid, v: Move, y: Grid, h: Move)
    requires (x, v) in ns && (y, h) in ns && v != h
    ensures |ns| >= 2
  {
    var a :| 0 <= a < |ns| && ns[a] == (x, v);
    var c :| 0 <= c < |ns| && ns[c] == (y, h);
    assert a != c;
  }

  /** The board reached by applying the moves of `p` in order, if all are legal. */
  function ApplyPath(g: Grid, p: seq<Move>): (r: Option<Grid>)
    requires IsGrid(g)
    ensures r.Some? ==> IsGrid(r.value)
    decreases |p|
  {
    if p == [] then Some(g)
    else
      match Step(g, p[0])
      case None => None
      case Some(h) => ApplyPath(h, p[1..])
  }

  /** A path whose first move is legal continues from that move's result. */
  lemma ApplyPathStep(g: Grid, p: seq<Move>)
    requires IsGrid(g) && p != [] && Step(g, p[0]).Some?
    ensures ApplyPath(g, p) == ApplyPath(Step(g, p[0]).value, p[1..])
  {
  }

  /** `p` leads from `g` to the goal board. */
  predicate Solves(g: Grid, p: seq<Move>)
    requires IsGrid(g)
  {
    ApplyPath(g, p).Some? && StateToTuple(ApplyPath(g, p).value) == GoalKey
  }

  /** `p` leads from `g` to a board whose key is `k`. */
  predicate Reaches(g: Grid, p: seq<Move>, k: Key)
    requires IsGrid(g)
  {
    ApplyPath(g, p).Some? && StateToTuple(ApplyPath(g, p).value) == k
  }

  /** Applying `a + b` is applying `a`, then `b` to the result. */
  lemma {:induction false} ApplyPathConcat(g: Grid, a: seq<Move>, b: seq<Move>)
    requires IsGrid(g)
    ensures ApplyPath(g, a + b) ==
      (match ApplyPath(g, a) case None => None case Some(h) => ApplyPath(h, b))
    decreases |a|
  {
    if a == [] {
      assert a + b == b;
    } else {
      assert (a + b)[0] == a[0];
      assert (a + b)[1..] == a[1..] + b;
      match Step(g, a[0])
      case None =>
      case Some(h) => ApplyPathConcat(h, a[1..], b);
    }
  }

  /** A path that applies to a board with a blank ends on a board with a blank. */
  lemma {:induction false} ApplyPathKeepsBlank(g: Grid, p: seq<Move>)
    requires IsGrid(g) && GetBlankPos(g).Some? && ApplyPath(g, p).Some?
    ensures GetBlankPos(ApplyPath(g, p).value).Some?
    decreases |p|
  {
    if p != [] {
      StepKeepsBlank(g, p[0]);
      ApplyPathKeepsBlank(Step(g, p[0]).value, p[1..]);
    }
  }

  /** A grid from which a path reaches a valid grid is itself valid. */
  lemma {:induction false} ApplyPathBackValid(g: Grid, p: seq<Move>)
    requires IsGrid(g) && ApplyPath(g, p).Some? && ValidGrid(ApplyPath(g, p).value)
    ensures ValidGrid(g)
    decreases |p|
  {
    if p != [] {
      ApplyPathBackValid(Step(g, p[0]).value, p[1..]);
      StepBackValid(g, p[0]);
    }
  }

  /**
    The reversed path with every move inverted (the solver's goal-side path
    translation).
   */
  function InvertPath(q: seq<Move>): (r: seq<Move>)
    ensures |r| == |q|
    ensures forall i | 0 <= i < |q| :: r[i] == Inverse(q[|q| - 1 - i])
  {
    if q == [] then [] else InvertPath(q[1..]) + [Inverse(q[0])]
  }

  /** On a valid board, the inverted reversed path undoes the path. */
  lemma {:induction false} ApplyPathInverse(g: Grid, q: seq<Move>)
    requires ValidGrid(g) && ApplyPath(g, q).Some?
    ensures ApplyPath(ApplyPath(g, q).value, InvertPath(q)) == Some(g)
    decreases |q|
  {
    if q != [] {
      var g1 := Step(g, q[0]).value;
      StepInverse(g, q[0]);
      ApplyPathInverse(g1, q[1..]);
      var h := ApplyPath(g, q).value;
      assert InvertPath(q) == InvertPath(q[1..]) + [Inverse(q[0])];
      ApplyPathConcat(h, InvertPath(q[1..]), [Inverse(q[0])]);
      assert ApplyPath(g1, [Inverse(q[0])]) == Step(g1, Inverse(q[0]));
    }
  }
}

=== FILE: options.dfy ===
/** The optional-value wrapper the solver uses where the solver returns `None`. */
module Options {

  datatype Option<+T> = None | Some(value: T)
}

=== FILE: solvability.dfy ===
/**
  The solvability oracle: a board can reach the goal only if the number of
  inversions among its non-blank tiles, read row-major, is even. On a board
  of odd width with the blank last in the goal, every legal move keeps the
  parity of that count.
 */
module Solvability {
  import opened Options
  import opened Board
  import opened Moves

  /** The tiles of `s` other than the blank, in order. */
  function NonBlank(s: seq<int>): seq<int> {
    if s == [] then [] else (if s[0] != 0 then [s[0]] else []) + NonBlank(s[1..])
  }

  /**
    `NonBlank` keeps exactly the non-zero elements, each as often as it
    occurs, and never lengthens; `NonBlankConcat` shows it keeps their order.
   */
  lemma {:induction false} NonBlankMembers(s: seq<int>)
    ensures forall x | x in NonBlank(s) :: x in s && x != 0
    ensures forall x | x in s && x != 0 :: x in NonBlank(s)
    ensures multiset(NonBlank(s)) == multiset(s)[0 := 0]
    ensures |NonBlank(s)| <= |s|
    decreases |s|
  {
    if s != [] {
      NonBlankMembers(s[1..]);
      assert s == [s[0]] + s[1..];
      assert multiset(s) == multiset([s[0]]) + multiset(s[1..]);
      assert forall x | x in s :: x == s[0] || x in s[1..];
    }
  }

  /** How many elements of `s` are smaller than `x`. */
  function Smaller(x: int, s: seq<int>): nat {
    if s == [] then 0 else (if s[0] < x then 1 else 0) + Smaller(x, s[1..])
  }

  /** The number of pairs i < j with s[i] > s[j]. */
  function Inversions(s: seq<int>): nat {
    if s == [] then 0 else Smaller(s[0], s[1..]) + Inversions(s[1..])
  }

  /** The number of pairs (x in a, y in b) with x > y. */
  function Cross(a: seq<int>, b: seq<int>): nat {
    if a == [] then 0 else Smaller(a[0], b) + Cross(a[1..], b)
  }

  /**
    The oracle: a board is solvable when the non-blank tiles, read row by
    row, form an even number of out-of-order pairs.
   */
  function IsSolvable(g: Grid): (r: bool)
    requires IsGrid(g)
    ensures r <==> |InversionPairs(NonBlank(StateToTuple(g)))| % 2 == 0
  {
    InversionsArePairs(NonBlank(StateToTuple(g)));
    Inversions(NonBlank(StateToTuple(g))) % 2 == 0
  }

  /** The index pairs i < j with s[i] > s[j]: what the solver's double loop over index pairs counts. */
  ghost function InversionPairs(s: seq<int>): set<(int, int)> {
    set i, j | 0 <= i < j < |s| && s[i] > s[j] :: (i, j)
  }

  /** The out-of-order pairs of `s`, both indices shifted by `off`. */
  ghost function PairsFrom(s: seq<int>, off: int): set<(int, int)> {
    set i, j | 0 <= i < j < |s| && s[i] > s[j] :: (i + off, j + off)
  }

  /** The pairs (a, b + j) for the positions j of `t` holding a value below `x`. */
  ghost function RowPairs(x: int, t: seq<int>, a: int, b: int): set<(int, int)> {
    set j | 0 <= j < |t| && t[j] < x :: (a, b + j)
  }

  /** The recursive count agrees with the number of out-of-order index pairs. */
  lemma InversionsArePairs(s: seq<int>)
    ensures Inversions(s) == |InversionPairs(s)|
  {
    PairsFromCount(s, 0);
    assert InversionPairs(s) == PairsFrom(s, 0);
  }

  lemma {:induction false} RowPairsCount(x: int, t: seq<int>, a: int, b: int)
    ensures |RowPairs(x, t, a, b)| == Smaller(x, t)
    decreases |t|
  {
    if t == [] {
      assert RowPairs(x, t, a, b) == {};
    } else {
      RowPairsCount(x, t[1..], a, b + 1);
      RowPairsSplit(x, t, a, b);
      var head: set<(int, int)> := if t[0] < x then {(a, b)} else {};
      DisjointCard(head, RowPairs(x, t[1..], a, b + 1));
    }
  }

  /** Splitting off the first position of `t`. */
  lemma RowPairsSplit(x: int, t: seq<int>, a: int, b: int)
    requires t != []
    ensures RowPairs(x, t, a, b) == (if t[0] < x then {(a, b)} else {}) + RowPairs(x, t[1..], a, b + 1)
    ensures forall p | p in RowPairs(x, t[1..], a, b + 1) :: p.1 > b
  {
    var rest := RowPairs(x, t[1..], a, b + 1);
    var head: set<(int, int)> := if t[0] < x then {(a, b)} else {};
    forall p | p in RowPairs(x, t, a, b)
      ensures p in head + rest
    {
      var j :| 0 <= j < |t| && t[j] < x && p == (a, b + j);
      if j > 0 {
        assert t[1..][j - 1] == t[j] && p == (a, (b + 1) + (j - 1));
      }
    }
    forall p | p in head + rest
      ensures p in RowPairs(x, t, a, b)
    {
      if p in rest {
        var j :| 0 <= j < |t[1..]| && t[1..][j] < x && p == (a, (b + 1) + j);
        assert t[j + 1] == t[1..][j] && p == (a, b + (j + 1));
      } else {
        assert t[0] < x && p == (a, b + 0);
      }
    }
  }

  /** Two sets with no common element: the size of the union is the sum of the sizes. */
  lemma DisjointCard(a: set<(int, int)>, b: set<(int, int)>)
    requires forall p | p in a :: p !in b
    ensures |a + b| == |a| + |b|
  {
    assert a * b == {};
  }

  lemma {:induction false} PairsFromCount(s: seq<int>, off: int)
    ensures |PairsFrom(s, off)| == Inversions(s)
    decreases |s|
  {
    if s == [] {
      assert PairsFrom(s, off) == {};
    } else {
      RowPairsCount(s[0], s[1..], off, off + 1);
      PairsFromCount(s[1..], off + 1);
      PairsFromSplit(s, off);
      DisjointCard(RowPairs(s[0], s[1..], off, off + 1), PairsFrom(s[1..], off + 1));
    }
  }

  /** Splitting off the pairs whose first index is the first position. */
  lemma PairsFromSplit(s: seq<int>, off: int)
    requires s != []
    ensures PairsFrom(s, off) == RowPairs(s[0], s[1..], off, off + 1) + PairsFrom(s[1..], off + 1)
    ensures forall p | p in PairsFrom(s[1..], off + 1) :: p.0 > off
  {
    PairsFromCovered(s, off);
    RowPairsInside(s, off);
    ShiftedPairsInside(s, off);
  }

  lemma RowPairsInside(s: seq<int>, off: int)
    requires s != []
    ensures forall p | p in RowPairs(s[0], s[1..], off, off + 1) :: p in PairsFrom(s, off)
  {
    var t := s[1..];
    forall p | p in RowPairs(s[0], t, off, off + 1)
      ensures p in PairsFrom(s, off)
    {
      var j :| 0 <= j < |t| && t[j] < s[0] && p == (off, (off + 1) + j);
      assert s[j + 1] == t[j] && p == (0 + off, (j + 1) + off);
    }
  }

  lemma ShiftedPairsInside(s: seq<int>, off: int)
    requires s != []
    ensures forall p | p in PairsFrom(s[1..], off + 1) :: p in PairsFrom(s, off) && p.0 > off
  {
    var t := s[1..];
    forall p | p in PairsFrom(t, off + 1)
      ensures p in PairsFrom(s, off) && p.0 > off
    {
      var i, j :| 0 <= i < j < |t| && t[i] > t[j] && p == (i + (off + 1), j + (off + 1));
      assert s[i + 1] == t[i] && s[j + 1] == t[j] && p == ((i + 1) + off, (j + 1) + off);
    }
  }

  lemma PairsFromCovered(s: seq<int>, off: int)
    requires s != []
    ensures forall p | p in PairsFrom(s, off) :: p in RowPairs(s[0], s[1..], off, off + 1) + PairsFrom(s[1..], off + 1)
  {
    var t := s[1..];
    forall p | p in PairsFrom(s, off)
      ensures p in RowPairs(s[0], t, off, off + 1) + PairsFrom(t, off + 1)
    {
      var i, j :| 0 <= i < j < |s| && s[i] > s[j] && p == (i + off, j + off);
      if i == 0 {
        assert t[j - 1] == s[j] && p == (off, (off + 1) + (j - 1));
      } else {
        assert t[i - 1] == s[i] && t[j - 1] == s[j] && p == ((i - 1) + (off + 1), (j - 1) + (off + 1));
      }
    }
  }

  /**
    The solver's double loop over index pairs: counts i < j with
    flat[i] > flat[j], and agrees with `Inversions`.
   */
  method CountInversions(flat: seq<int>) returns (inversions: nat)
    ensures inversions == Inversions(flat)
  {
    inversions := 0;
    var i := 0;
    while i < |flat|
      invariant 0 <= i <= |flat|
      invariant inversions + Inversions(flat[i..]) == Inversions(flat)
    {
      assert flat[i..][1..] == flat[i + 1..];
      var j := i + 1;
      var row := 0;
      while j < |flat|
        invariant i + 1 <= j <= |flat|
        invariant row + Smaller(flat[i], flat[j..]) == Smaller(flat[i], flat[i + 1..])
      {
        assert flat[j..][1..] == flat[j + 1..];
        if flat[i] > flat[j] {
          row := row + 1;
        }
        j := j + 1;
      }
      inversions := inversions + row;
      i := i + 1;
    }
  }

  /** The solver's `is_solvable`, computed with the double loop. */
  method CheckSolvable(g: Grid) returns (solvable: bool)
    requires IsGrid(g)
    ensures solvable == IsSolvable(g)
    ensures ValidGrid(g) && !solvable ==> forall p :: !Solves(g, p)
  {
    var inversions := CountInversions(NonBlank(StateToTuple(g)));
    solvable := inversions % 2 == 0;
    if ValidGrid(g) && !solvable {
      UnsolvableHasNoSolution(g);
    }
  }

  /** Filtering a concatenation filters each part in place. */
  lemma {:induction false} NonBlankConcat(a: seq<int>, b: seq<int>)
    ensures NonBlank(a + b) == NonBlank(a) + NonBlank(b)
    decreases |a|
  {
    if a == [] {
      assert a + b == b;
    } else {
      assert (a + b)[0] == a[0];
      assert (a + b)[1..] == a[1..] + b;
      NonBlankConcat(a[1..], b);
    }
  }

  lemma {:induction false} SmallerConcat(x: int, a: seq<int>, b: seq<int>)
    ensures Smaller(x, a + b) == Smaller(x, a) + Smaller(x, b)
    decreases |a|
  {
    if a == [] {
      assert a + b == b;
    } else {
      assert (a + b)[1..] == a[1..] + b;
      SmallerConcat(x, a[1..], b);
    }
  }

  /** Inversions split into those inside each half and those across. */
  lemma {:induction false} InversionsConcat(a: seq<int>, b: seq<int>)
    ensures Inversions(a + b) == Inversions(a) + Inversions(b) + Cross(a, b)
    decreases |a|
  {
    if a == [] {
      assert a + b == b;
    } else {
      assert (a + b)[0] == a[0];
      assert (a + b)[1..] == a[1..] + b;
      SmallerConcat(a[0], a[1..], b);
      InversionsConcat(a[1..], b);
    }
  }

  lemma {:induction false} CrossConcatRight(a: seq<int>, b: seq<int>, c: seq<int>)
    ensures Cross(a, b + c) == Cross(a, b) + Cross(a, c)
    decreases |a|
  {
    if a != [] {
      SmallerConcat(a[0], b, c);
      CrossConcatRight(a[1..], b, c);
    }
  }

  /** Rotating a triple does not change how many of its elements lie below a value. */
  lemma {:induction false} CrossRotatedRight(a: seq<int>, x: int, y: int, t: int)
    ensures Cross(a, [x, y, t]) == Cross(a, [t, x, y])
    decreases |a|
  {
    if a != [] {
      SmallerOfThree(a[0], x, y, t);
      SmallerOfThree(a[0], t, x, y);
      CrossRotatedRight(a[1..], x, y, t);
    }
  }

  lemma SmallerOfThree(z: int, x: int, y: int, t: int)
    ensures Smaller(z, [x, y, t]) == (if x < z then 1 else 0) + (if y < z then 1 else 0) + (if t < z then 1 else 0)
  {
    assert Smaller(z, [t]) == (if t < z then 1 else 0) + Smaller(z, []) by {
      assert [t][1..] == [];
    }
    assert Smaller(z, [y, t]) == (if y < z then 1 else 0) + Smaller(z, [t]) by {
      assert [y, t][1..] == [t];
    }
    assert Smaller(z, [x, y, t]) == (if x < z then 1 else 0) + Smaller(z, [y, t]) by {
      assert [x, y, t][1..] == [y, t];
    }
  }

  lemma InversionsOfThree(x: int, y: int, t: int)
    ensures Inversions([x, y, t]) == (if y < x then 1 else 0) + (if t < x then 1 else 0) + (if t < y then 1 else 0)
  {
    assert Inversions([t]) == Smaller(t, []) + Inversions([]) by {
      assert [t][1..] == [];
    }
    assert Inversions([y, t]) == Smaller(y, [t]) + Inversions([t]) by {
      assert [y, t][1..] == [t];
    }
    assert Inversions([x, y, t]) == Smaller(x, [y, t]) + Inversions([y, t]) by {
      assert [x, y, t][1..] == [y, t];
    }
    assert Smaller(y, [t]) == (if t < y then 1 else 0) + Smaller(y, []) by {
      assert [t][1..] == [];
    }
    assert Smaller(x, [t]) == (if t < x then 1 else 0) + Smaller(x, []) by {
      assert [t][1..] == [];
    }
    assert Smaller(x, [y, t]) == (if y < x then 1 else 0) + Smaller(x, [t]) by {
      assert [y, t][1..] == [t];
    }
  }

  lemma CrossOfThree(x: int, y: int, t: int, b: seq<int>)
    ensures Cross([x, y, t], b) == Smaller(x, b) + Smaller(y, b) + Smaller(t, b)
  {
    assert Cross([t], b) == Smaller(t, b) + Cross([], b) by {
      assert [t][1..] == [];
    }
    assert Cross([y, t], b) == Smaller(y, b) + Cross([t], b) by {
      assert [y, t][1..] == [t];
    }
    assert Cross([x, y, t], b) == Smaller(x, b) + Cross([y, t], b) by {
      assert [x, y, t][1..] == [y, t];
    }
  }

  /** The non-blank tiles of a four-element window. */
  lemma NonBlankOfFour(u: int, x: int, y: int, w: int)
    ensures NonBlank([u, x, y, w]) ==
      (if u != 0 then [u] else []) + (if x != 0 then [x] else []) + (if y != 0 then [y] else []) + (if w != 0 then [w] else [])
  {
    assert NonBlank([w]) == (if w != 0 then [w] else []) + NonBlank([]) by {
      assert [w][1..] == [];
    }
    assert NonBlank([y, w]) == (if y != 0 then [y] else []) + NonBlank([w]) by {
      assert [y, w][1..] == [w];
    }
    assert NonBlank([x, y, w]) == (if x != 0 then [x] else []) + NonBlank([y, w]) by {
      assert [x, y, w][1..] == [y, w];
    }
    assert NonBlank([u, x, y, w]) == (if u != 0 then [u] else []) + NonBlank([x, y, w]) by {
      assert [u, x, y, w][1..] == [x, y, w];
    }
  }

  /** Inversions of a three-part sequence, split by part. */
  lemma InversionsSandwich(a: seq<int>, m: seq<int>, b: seq<int>)
    ensures Inversions(a + m + b) ==
      Inversions(a) + Inversions(m) + Inversions(b) + Cross(a, m) + Cross(a, b) + Cross(m, b)
  {
    InversionsConcat(a + m, b);
    InversionsConcat(a, m);
    CrossConcatLeft(a, m, b);
  }

  /** The non-blank tiles of a three-part sequence, part by part. */
  lemma NonBlankSandwich(a: seq<int>, m: seq<int>, b: seq<int>)
    ensures NonBlank(a + m + b) == NonBlank(a) + NonBlank(m) + NonBlank(b)
  {
    NonBlankConcat(a + m, b);
    NonBlankConcat(a, m);
  }

  lemma NonBlankOfTwo(u: int, v: int)
    ensures NonBlank([u, v]) == (if u != 0 then [u] else []) + (if v != 0 then [v] else [])
  {
    assert NonBlank([v]) == (if v != 0 then [v] else []) + NonBlank([]) by {
      assert [v][1..] == [];
    }
    assert NonBlank([u, v]) == (if u != 0 then [u] else []) + NonBlank([v]) by {
      assert [u, v][1..] == [v];
    }
  }

  /**
    Moving one tile t over two distinct others x and y changes the inversion
    count by -2, 0 or 2.
   */
  lemma RotateParity(a: seq<int>, b: seq<int>, x: int, y: int, t: int)
    requires x != t && y != t
    ensures Inversions(a + [x, y, t] + b) % 2 == Inversions(a + [t, x, y] + b) % 2
  {
    RotationCrossesAgree(a, b, x, y, t);
    ThreeRotationParity(x, y, t);
    InversionsSandwich(a, [x, y, t], b);
    InversionsSandwich(a, [t, x, y], b);
  }

  /** Rotating a window does not change its crossings with what lies on either side. */
  lemma RotationCrossesAgree(a: seq<int>, b: seq<int>, x: int, y: int, t: int)
    ensures Cross(a, [x, y, t]) == Cross(a, [t, x, y])
    ensures Cross([x, y, t], b) == Cross([t, x, y], b)
  {
    CrossOfThree(x, y, t, b);
    CrossOfThree(t, x, y, b);
    CrossRotatedRight(a, x, y, t);
  }

  /** Moving t over two others it differs from changes the window's own inversions by an even amount. */
  lemma ThreeRotationParity(x: int, y: int, t: int)
    requires x != t && y != t
    ensures (Inversions([x, y, t]) + Inversions([t, x, y])) % 2 == 0
  {
    InversionsOfThree(x, y, t);
    InversionsOfThree(t, x, y);
  }

  lemma {:induction false} CrossConcatLeft(a: seq<int>, b: seq<int>, c: seq<int>)
    ensures Cross(a + b, c) == Cross(a, c) + Cross(b, c)
    decreases |a|
  {
    if a == [] {
      assert a + b == b;
    } else {
      assert (a + b)[0] == a[0];
      assert (a + b)[1..] == a[1..] + b;
      CrossConcatLeft(a[1..], b, c);
    }
  }

  /** Exchanging the blank with its right or left neighbour leaves the tile order alone. */
  lemma AdjacentSwapKeepsTiles(a: seq<int>, b: seq<int>, u: int, v: int)
    requires u == 0 || v == 0
    ensures NonBlank(a + [u, v] + b) == NonBlank(a + [v, u] + b)
  {
    NonBlankSandwich(a, [u, v], b);
    NonBlankSandwich(a, [v, u], b);
    NonBlankOfTwo(u, v);
    NonBlankOfTwo(v, u);
  }

  /**
    Exchanging the blank with the tile three positions away moves that tile
    over the two tiles in between, which keeps the inversion parity.
   */
  lemma JumpKeepsParity(a: seq<int>, b: seq<int>, u: int, x: int, y: int, w: int)
    requires (u == 0 && w != 0) || (w == 0 && u != 0)
    requires x != 0 && y != 0 && x != u && x != w && y != u && y != w
    ensures Inversions(NonBlank(a + [u, x, y, w] + b)) % 2 == Inversions(NonBlank(a + [w, x, y, u] + b)) % 2
  {
    var mid, mid' := [u, x, y, w], [w, x, y, u];
    NonBlankSandwich(a, mid, b);
    NonBlankSandwich(a, mid', b);
    NonBlankOfFour(u, x, y, w);
    NonBlankOfFour(w, x, y, u);
    if u == 0 {
      assert NonBlank(mid) == [x, y, w];
      assert NonBlank(mid') == [w, x, y];
      RotateParity(NonBlank(a), NonBlank(b), x, y, w);
    } else {
      assert NonBlank(mid) == [u, x, y];
      assert NonBlank(mid') == [x, y, u];
      RotateParity(NonBlank(a), NonBlank(b), x, y, u);
    }
  }

  /** Exchanging positions lo and lo + 1, one of them blank, keeps the tile order. */
  lemma HorizontalSwapKeepsTiles(k: Key, k': Key, lo: int)
    requires |k| == 9 && |k'| == 9 && 0 <= lo && lo + 1 < 9
    requires k'[lo] == k[lo + 1] && k'[lo + 1] == k[lo] && (k[lo] == 0 || k[lo + 1] == 0)
    requires forall n | 0 <= n < 9 && n != lo && n != lo + 1 :: k'[n] == k[n]
    ensures NonBlank(k') == NonBlank(k)
  {
    var a, b := k[..lo], k[lo + 2..];
    assert k == a + [k[lo], k[lo + 1]] + b;
    assert k' == a + [k[lo + 1], k[lo]] + b;
    AdjacentSwapKeepsTiles(a, b, k[lo], k[lo + 1]);
  }

  /** Exchanging positions lo and lo + 3, one of them blank, keeps the inversion parity. */
  lemma VerticalSwapKeepsParity(k: Key, k': Key, lo: int)
    requires |k| == 9 && |k'| == 9 && 0 <= lo && lo + 3 < 9
    requires k'[lo] == k[lo + 3] && k'[lo + 3] == k[lo]
    requires forall n | 0 <= n < 9 && n != lo && n != lo + 3 :: k'[n] == k[n]
    requires (k[lo] == 0 && k[lo + 3] != 0) || (k[lo + 3] == 0 && k[lo] != 0)
    requires k[lo + 1] != 0 && k[lo + 2] != 0
    requires k[lo + 1] != k[lo] && k[lo + 1] != k[lo + 3] && k[lo + 2] != k[lo] && k[lo + 2] != k[lo + 3]
    ensures Inversions(NonBlank(k')) % 2 == Inversions(NonBlank(k)) % 2
  {
    var a, b := k[..lo], k[lo + 4..];
    assert k == a + [k[lo], k[lo + 1], k[lo + 2], k[lo + 3]] + b;
    assert k' == a + [k[lo + 3], k[lo + 1], k[lo + 2], k[lo]] + b;
    JumpKeepsParity(a, b, k[lo], k[lo + 1], k[lo + 2], k[lo + 3]);
  }

  /**
    Exchanging the blank of a valid key with a tile one or three positions
    away keeps the parity of the inversion count.
   */
  lemma SwapParity(k: Key, k': Key, p: int, q: int)
    requires ValidKey(k) && |k'| == 9 && 0 <= p < 9 && 0 <= q < 9 && k[p] == 0
    requires k'[p] == k[q] && k'[q] == k[p]
    requires forall n | 0 <= n < 9 && n != p && n != q :: k'[n] == k[n]
    requires q == p + 1 || q == p - 1 || q == p + 3 || q == p - 3
    ensures Inversions(NonBlank(k')) % 2 == Inversions(NonBlank(k)) % 2
  {
    if q == p + 1 {
      HorizontalSwapKeepsTiles(k, k', p);
    } else if q == p - 1 {
      HorizontalSwapKeepsTiles(k, k', q);
    } else {
      var lo := if p < q then p else q;
      assert k[lo + 1] != k[p] && k[lo + 2] != k[p] && k[lo] != k[lo + 3];
      assert k[lo + 1] != k[lo] && k[lo + 1] != k[lo + 3] && k[lo + 2] != k[lo] && k[lo + 2] != k[lo + 3];
      VerticalSwapKeepsParity(k, k', lo);
    }
  }

  /** Every legal move keeps the answer of the oracle. */
  lemma StepPreservesSolvability(g: Grid, m: Move)
    requires ValidGrid(g) && Step(g, m).Some?
    ensures IsSolvable(Step(g, m).value) == IsSolvable(g)
  {
    var b := GetBlankPos(g).value;
    var t := Target(b, m);
    StepIsSwap(g, m);
    SwapAndCreateKey(g, b.row, b.col, t.row, t.col);
    var k, k' := StateToTuple(g), StateToTuple(Step(g, m).value);
    SwapParity(k, k', 3 * b.row + b.col, 3 * t.row + t.col);
  }

  /** Every path keeps the answer of the oracle. */
  lemma {:induction false} PathPreservesSolvability(g: Grid, p: seq<Move>)
    requires ValidGrid(g) && ApplyPath(g, p).Some?
    ensures IsSolvable(ApplyPath(g, p).value) == IsSolvable(g)
    decreases |p|
  {
    if p != [] {
      StepPreservesSolvability(g, p[0]);
      StepInverse(g, p[0]);
      PathPreservesSolvability(Step(g, p[0]).value, p[1..]);
    }
  }

  /** A strictly increasing sequence has no inversions. */
  lemma {:induction false} IncreasingHasNoInversions(s: seq<int>)
    requires forall i, j | 0 <= i < j < |s| :: s[i] < s[j]
    ensures Inversions(s) == 0
    decreases |s|
  {
    if s != [] {
      IncreasingHasNoInversions(s[1..]);
      NothingSmaller(s[0], s[1..]);
    }
  }

  lemma {:induction false} NothingSmaller(x: int, s: seq<int>)
    requires forall i | 0 <= i < |s| :: x < s[i]
    ensures Smaller(x, s) == 0
    decreases |s|
  {
    if s != [] {
      NothingSmaller(x, s[1..]);
    }
  }

  /** The goal board passes the oracle: its tiles 1..8 are in order. */
  lemma GoalIsSolvable()
    ensures IsSolvable(GoalGrid)
  {
    GoalIsValid();
    SortedBoardSolvable(GoalGrid);
  }

  /**
    The key-level fact behind `GoalIsSolvable` and `SwappedLastTilesUnsolvable`:
    a board whose key lists the tiles 1..8 in order and then the blank is solvable.
   */
  lemma SortedBoardSolvable(g: Grid)
    requires IsGrid(g)
    requires var k := StateToTuple(g); k[8] == 0 && forall i | 0 <= i < 8 :: k[i] == i + 1
    ensures IsSolvable(g)
  {
    var k := StateToTuple(g);
    TilesThenBlank(k);
    IncreasingHasNoInversions(k[..8]);
  }

  /** A key whose eight tiles come first and whose blank is last: its tiles are its first eight entries. */
  lemma TilesThenBlank(k: seq<int>)
    requires |k| == 9 && k[8] == 0 && forall i | 0 <= i < 8 :: k[i] != 0
    ensures NonBlank(k) == k[..8]
  {
    assert k == k[..8] + [k[8]];
    NonBlankConcat(k[..8], [k[8]]);
    NonBlankOfTiles(k[..8]);
    assert NonBlank([k[8]]) == [] by {
      assert [k[8]][1..] == [];
    }
  }

  /** Two elements form one inversion exactly when the first is larger. */
  lemma InversionsOfTwo(x: int, y: int)
    ensures Inversions([x, y]) == if x > y then 1 else 0
  {
    assert [x, y][1..] == [y] && [y][1..] == [];
    assert Inversions([y]) == 0;
    assert Smaller(x, [y]) == (if y < x then 1 else 0) + Smaller(x, []);
  }

  /** Exchanging two adjacent distinct tiles flips the parity of the inversion count. */
  lemma TileSwapFlipsParity(a: seq<int>, b: seq<int>, x: int, y: int)
    requires x != 0 && y != 0 && x != y
    ensures Inversions(NonBlank(a + [x, y] + b)) % 2 != Inversions(NonBlank(a + [y, x] + b)) % 2
  {
    NonBlankSandwich(a, [x, y], b);
    NonBlankSandwich(a, [y, x], b);
    NonBlankOfTwo(x, y);
    NonBlankOfTwo(y, x);
    assert NonBlank([x, y]) == [x, y] && NonBlank([y, x]) == [y, x];
    TransposeFlipsParity(NonBlank(a), NonBlank(b), x, y);
  }

  /** Transposing two adjacent distinct elements changes the inversion count by one. */
  lemma TransposeFlipsParity(a: seq<int>, b: seq<int>, x: int, y: int)
    requires x != y
    ensures Inversions(a + [x, y] + b) % 2 != Inversions(a + [y, x] + b) % 2
  {
    PairCrossesAgree(a, b, x, y);
    InversionsSandwich(a, [x, y], b);
    InversionsSandwich(a, [y, x], b);
    InversionsOfTwo(x, y);
    InversionsOfTwo(y, x);
  }

  /** Swapping a pair does not change its crossings with what lies on either side. */
  lemma PairCrossesAgree(a: seq<int>, b: seq<int>, x: int, y: int)
    ensures Cross(a, [x, y]) == Cross(a, [y, x])
    ensures Cross([x, y], b) == Cross([y, x], b)
  {
    assert [x, y] == [x] + [y] && [y, x] == [y] + [x];
    CrossConcatRight(a, [x], [y]);
    CrossConcatRight(a, [y], [x]);
    CrossConcatLeft([x], [y], b);
    CrossConcatLeft([y], [x], b);
  }

  /** On keys: exchanging positions lo and lo + 1, both distinct tiles, flips the parity. */
  lemma HorizontalTileSwapFlipsParity(k: Key, k': Key, lo: int)
    requires |k| == 9 && |k'| == 9 && 0 <= lo && lo + 1 < 9
    requires k'[lo] == k[lo + 1] && k'[lo + 1] == k[lo]
    requires k[lo] != 0 && k[lo + 1] != 0 && k[lo] != k[lo + 1]
    requires forall n | 0 <= n < 9 && n != lo && n != lo + 1 :: k'[n] == k[n]
    ensures Inversions(NonBlank(k')) % 2 != Inversions(NonBlank(k)) % 2
  {
    var a, b := k[..lo], k[lo + 2..];
    assert k == a + [k[lo], k[lo + 1]] + b;
    assert k' == a + [k[lo + 1], k[lo]] + b;
    TileSwapFlipsParity(a, b, k[lo], k[lo + 1]);
  }

  /**
    Exchanging two distinct tiles that sit side by side flips the oracle's
    answer: exactly one of the two boards is solvable.
   */
  lemma TileSwapFlipsSolvability(g: Grid, i: int, j: int)
    requires IsGrid(g) && InBounds(i, j) && InBounds(i, j + 1)
    requires g[i][j] != 0 && g[i][j + 1] != 0 && g[i][j] != g[i][j + 1]
    ensures IsSolvable(SwapAndCreate(g, i, j, i, j + 1)) != IsSolvable(g)
  {
    SwapAndCreateKey(g, i, j, i, j + 1);
    HorizontalTileSwapFlipsParity(StateToTuple(g), StateToTuple(SwapAndCreate(g, i, j, i, j + 1)), 3 * i + j);
  }

  lemma {:induction false} NonBlankOfTiles(s: seq<int>)
    requires forall i | 0 <= i < |s| :: s[i] != 0
    ensures NonBlank(s) == s
    decreases |s|
  {
    if s != [] {
      NonBlankOfTiles(s[1..]);
    }
  }

  /** A board that fails the oracle can never reach the goal. */
  lemma UnsolvableHasNoSolution(g: Grid)
    requires ValidGrid(g) && !IsSolvable(g)
    ensures forall p :: !Solves(g, p)
  {
    forall p | ApplyPath(g, p).Some?
      ensures StateToTuple(ApplyPath(g, p).value) != GoalKey
    {
      PathPreservesSolvability(g, p);
      GoalIsSolvable();
    }
  }

  /** The goal board with tiles 7 and 8 exchanged fails the oracle. */
  lemma SwappedLastTilesUnsolvable(g: Grid)
    requires g == [[1, 2, 3], [4, 5, 6], [8, 7, 0]]
    ensures !IsSolvable(g)
  {
    var h := SwapAndCreate(g, 2, 0, 2, 1);
    TileSwapFlipsSolvability(g, 2, 0);
    SwapAndCreateKey(g, 2, 0, 2, 1);
    var k := StateToTuple(h);
    assert k[8] == 0 && forall n | 0 <= n < 8 :: k[n] == n + 1;
    SortedBoardSolvable(h);
  }

}

=== FILE: walks.dfy ===
/**
  Walks through the move graph: the boards a path visits, the path-local
  "not yet on this path" condition the depth-limited search enforces, and
  the fact that any solution can be shortened to one that never revisits a
  board.
 */
module Walks {
  import opened Options
  import opened Board
  import opened Moves

  /** The boards a legal path visits, starting board included. */
  function Trace(g: Grid, p: seq<Move>): (tr: seq<Grid>)
    requires IsGrid(g) && ApplyPath(g, p).Some?
    ensures |tr| == |p| + 1 && tr[0] == g && tr[|p|] == ApplyPath(g, p).value
    ensures forall i | 0 <= i < |tr| :: IsGrid(tr[i])
    decreases |p|
  {
    if p == [] then [g] else [g] + Trace(Step(g, p[0]).value, p[1..])
  }

  /** The i-th board of the trace is where the first i moves lead. */
  lemma {:induction false} TracePrefix(g: Grid, p: seq<Move>, i: int)
    requires IsGrid(g) && ApplyPath(g, p).Some? && 0 <= i <= |p|
    ensures ApplyPath(g, p[..i]) == Some(Trace(g, p)[i])
    ensures ApplyPath(Trace(g, p)[i], p[i..]) == ApplyPath(g, p)
    decreases |p|
  {
    if i == 0 {
      assert p[..0] == [] && p[0..] == p;
    } else {
      var g1 := Step(g, p[0]).value;
      TracePrefix(g1, p[1..], i - 1);
      assert p[..i][0] == p[0];
      assert p[..i][1..] == p[1..][..i - 1];
      assert p[1..][i - 1..] == p[i..];
    }
  }

  /**
    `p` leads from `g` through boards whose keys are not in `vis` and not
    repeated, each new key joining the set as the path advances: the boards
    the depth-limited search may enter along one branch.
   */
  ghost predicate Fresh(g: Grid, p: seq<Move>, vis: set<Key>)
    requires IsGrid(g)
    decreases |p|
  {
    p == [] ||
    (Step(g, p[0]).Some? &&
     StateToTuple(Step(g, p[0]).value) !in vis &&
     Fresh(Step(g, p[0]).value, p[1..], vis + {StateToTuple(Step(g, p[0]).value)}))
  }

  /** The rest of a fresh path is fresh from the first move's result, with that board added. */
  lemma FreshTail(g: Grid, p: seq<Move>, vis: set<Key>)
    requires IsGrid(g) && p != [] && Fresh(g, p, vis)
    ensures Step(g, p[0]).Some?
    ensures Fresh(Step(g, p[0]).value, p[1..], vis + {StateToTuple(Step(g, p[0]).value)})
  {
  }

  /** No board repeats along the trace. */
  ghost predicate SelfAvoiding(tr: seq<Grid>) {
    forall i, j | 0 <= i < j < |tr| :: tr[i] != tr[j]
  }

  /** The rest of a legal non-empty path is legal from the first successor. */
  lemma TailLegal(g: Grid, p: seq<Move>)
    requires IsGrid(g) && ApplyPath(g, p).Some? && p != []
    ensures Step(g, p[0]).Some? && ApplyPath(Step(g, p[0]).value, p[1..]).Some?
  {
  }

  /** The trace of a non-empty path is its start followed by the trace of the rest. */
  lemma TraceTail(g: Grid, p: seq<Move>)
    requires IsGrid(g) && ApplyPath(g, p).Some? && p != []
    requires Step(g, p[0]).Some? && ApplyPath(Step(g, p[0]).value, p[1..]).Some?
    ensures Trace(g, p) == [g] + Trace(Step(g, p[0]).value, p[1..])
  {
  }

  /** Dropping the first board of a self-avoiding sequence keeps it self-avoiding. */
  lemma SelfAvoidingTail(tr: seq<Grid>, x: Grid, tr1: seq<Grid>)
    requires tr == [x] + tr1 && SelfAvoiding(tr)
    ensures SelfAvoiding(tr1)
  {
    forall i, j | 0 <= i < j < |tr1|
      ensures tr1[i] != tr1[j]
    {
      assert tr1[i] == tr[i + 1] && tr1[j] == tr[j + 1];
    }
  }

  /**
    In a self-avoiding sequence of grids whose boards after the first avoid
    `vis`, the boards after the second also avoid the second board's key.
   */
  lemma AvoidingKeysTail(tr: seq<Grid>, x: Grid, tr1: seq<Grid>, vis: set<Key>)
    requires tr == [x] + tr1 && |tr1| >= 1 && SelfAvoiding(tr)
    requires forall i | 0 <= i < |tr| :: IsGrid(tr[i])
    requires forall i | 0 <= i < |tr1| :: IsGrid(tr1[i])
    requires forall i | 1 <= i < |tr| :: StateToTuple(tr[i]) !in vis
    ensures StateToTuple(tr1[0]) !in vis
    ensures forall i | 1 <= i < |tr1| :: StateToTuple(tr1[i]) !in vis + {StateToTuple(tr1[0])}
  {
    assert tr1[0] == tr[1];
    forall i | 1 <= i < |tr1|
      ensures StateToTuple(tr1[i]) !in vis + {StateToTuple(tr1[0])}
    {
      assert tr1[i] == tr[i + 1];
      assert tr[i + 1] != tr[1];
      StateToTupleInjective(tr1[i], tr1[0]);
    }
  }

  /** The rest of a self-avoiding trace is self-avoiding. */
  lemma AvoidingTailSelf(g: Grid, p: seq<Move>)
    requires IsGrid(g) && ApplyPath(g, p).Some? && p != []
    requires Step(g, p[0]).Some? && ApplyPath(Step(g, p[0]).value, p[1..]).Some?
    requires SelfAvoiding(Trace(g, p))
    ensures SelfAvoiding(Trace(Step(g, p[0]).value, p[1..]))
  {
    TraceTail(g, p);
    SelfAvoidingTail(Trace(g, p), g, Trace(Step(g, p[0]).value, p[1..]));
  }

  /** After the first move, the rest of the trace avoids `vis` and the first successor. */
  lemma AvoidingTailKeys(g: Grid, p: seq<Move>, vis: set<Key>)
    requires IsGrid(g) && ApplyPath(g, p).Some? && p != []
    requires Step(g, p[0]).Some? && ApplyPath(Step(g, p[0]).value, p[1..]).Some?
    requires SelfAvoiding(Trace(g, p))
    requires forall i | 1 <= i < |Trace(g, p)| :: StateToTuple(Trace(g, p)[i]) !in vis
    ensures StateToTuple(Step(g, p[0]).value) !in vis
    ensures var g1 := Step(g, p[0]).value; var tr1 := Trace(g1, p[1..]);
      forall i | 1 <= i < |tr1| :: StateToTuple(tr1[i]) !in vis + {StateToTuple(g1)}
  {
    TraceTail(g, p);
    AvoidingKeysTail(Trace(g, p), g, Trace(Step(g, p[0]).value, p[1..]), vis);
  }

  /** A legal path that never repeats a board and avoids `vis` after its start is fresh. */
  lemma {:induction false} AvoidingIsFresh(g: Grid, p: seq<Move>, vis: set<Key>)
    requires IsGrid(g) && ApplyPath(g, p).Some?
    requires SelfAvoiding(Trace(g, p))
    requires forall i | 1 <= i < |Trace(g, p)| :: StateToTuple(Trace(g, p)[i]) !in vis
    ensures Fresh(g, p, vis)
    decreases |p|
  {
    if p != [] {
      TailLegal(g, p);
      AvoidingTailSelf(g, p);
      AvoidingTailKeys(g, p, vis);
      var g1 := Step(g, p[0]).value;
      AvoidingIsFresh(g1, p[1..], vis + {StateToTuple(g1)});
    }
  }

  /** Cutting out the moves between two visits of the same board leaves the end unchanged. */
  lemma CutLoop(g: Grid, p: seq<Move>, i: int, j: int)
    requires IsGrid(g) && ApplyPath(g, p).Some? && 0 <= i < j <= |p|
    requires Trace(g, p)[i] == Trace(g, p)[j]
    ensures ApplyPath(g, p[..i] + p[j..]) == ApplyPath(g, p)
  {
    TracePrefix(g, p, i);
    TracePrefix(g, p, j);
    ApplyPathConcat(g, p[..i], p[j..]);
  }

  /** A legal path that never repeats a board is fresh with respect to its start board alone. */
  lemma SelfAvoidingIsFresh(g: Grid, p: seq<Move>)
    requires IsGrid(g) && ApplyPath(g, p).Some? && SelfAvoiding(Trace(g, p))
    ensures Fresh(g, p, {StateToTuple(g)})
  {
    var tr := Trace(g, p);
    forall i | 1 <= i < |tr|
      ensures StateToTuple(tr[i]) !in {StateToTuple(g)}
    {
      StateToTupleInjective(tr[i], g);
    }
    AvoidingIsFresh(g, p, {StateToTuple(g)});
  }

  /**
    Every solution can be shortened to one that is fresh with respect to the
    start board alone.
   */
  lemma {:induction false} ShortcutToFresh(g: Grid, p: seq<Move>)
    requires IsGrid(g) && Solves(g, p)
    ensures exists q :: |q| <= |p| && Solves(g, q) && Fresh(g, q, {StateToTuple(g)})
    decreases |p|
  {
    var tr := Trace(g, p);
    if SelfAvoiding(tr) {
      SelfAvoidingIsFresh(g, p);
    } else {
      var i, j :| 0 <= i < j < |tr| && tr[i] == tr[j];
      CutLoop(g, p, i, j);
      ShortcutToFresh(g, p[..i] + p[j..]);
    }
  }

  /** A solution that revisits a board has a strictly shorter solution. */
  lemma LoopMeansShorter(g: Grid, p: seq<Move>) returns (q: seq<Move>)
    requires IsGrid(g) && Solves(g, p) && !SelfAvoiding(Trace(g, p))
    ensures |q| < |p| && Solves(g, q)
  {
    var tr := Trace(g, p);
    var i, j :| 0 <= i < j < |tr| && tr[i] == tr[j];
    q := p[..i] + p[j..];
    CutLoop(g, p, i, j);
  }

  /** A shortest solution never revisits a board, so it is fresh with respect to its start. */
  lemma ShortestIsFresh(g: Grid, p: seq<Move>)
    requires IsGrid(g) && Solves(g, p)
    requires forall q | |q| < |p| :: !Solves(g, q)
    ensures Fresh(g, p, {StateToTuple(g)})
  {
    if !SelfAvoiding(Trace(g, p)) {
      var q := LoopMeansShorter(g, p);
    }
    SelfAvoidingIsFresh(g, p);
  }

  /**
    `p` comes strictly before `q` in the order a depth-first search that
    tries Up, Down, Left, Right meets paths: a proper prefix comes first,
    and otherwise the first differing move decides.
   */
  predicate Precedes(p: seq<Move>, q: seq<Move>)
    decreases |p|
  {
    q != [] && (p == [] || Index(p[0]) < Index(q[0]) || (p[0] == q[0] && Precedes(p[1..], q[1..])))
  }

  /** `Precedes` is a strict total order on paths. */
  lemma {:induction false} PrecedesStrictTotal(p: seq<Move>, q: seq<Move>)
    ensures !Precedes(p, p)
    ensures p != q ==> (Precedes(p, q) <==> !Precedes(q, p))
    decreases |p|
  {
    if p != [] {
      PrecedesStrictTotal(p[1..], p[1..]);
      if q != [] && p[0] == q[0] {
        PrecedesStrictTotal(p[1..], q[1..]);
        if p != q {
          assert p == [p[0]] + p[1..] && q == [q[0]] + q[1..];
        }
      }
    }
  }

  /**
    If no fresh path of length at most d solves `g`, no path of length at most
    d does.
   */
  lemma NoFreshSolutionMeansNone(g: Grid, d: int)
    requires IsGrid(g)
    requires forall q | |q| <= d && Fresh(g, q, {StateToTuple(g)}) :: !Solves(g, q)
    ensures forall p | |p| <= d :: !Solves(g, p)
  {
    forall p | |p| <= d
      ensures !Solves(g, p)
    {
      if Solves(g, p) {
        ShortcutToFresh(g, p);
      }
    }
  }
}
